=== FILE: README.md ===
# College election rules in Dafny

This project models the rules of a small college election web application. Elections, voters,
votes and administrators are kept in JSON files and browser storage. Underneath the React markup
there is a set of deterministic rules, and the model states and proves them:

- the vote-submit route updates the tally `election → position → candidate → {votes, lastUpdated}`
  and the per-election turnout record for one ballot;
- the voter dashboard classifies an election's timeline, lists the active elections, toggles
  candidates within a position's `maxSelections`, checks the ballot before submitting, and keeps
  a one-time "voted" flag;
- the results manager picks the winner (first wins on ties), ranks the candidates by votes with a
  stable sort and a trend against the previous snapshot, and guards the margin and the
  percentage;
- the elections API appends an election with a forced `status` and updates one by id with a
  shallow merge;
- the notifications route finds the election and chooses the recipients by year, stream and
  "has not voted";
- the three login pages validate fields in a fixed order and match credentials; the
  student-admin page's one-time code is single-use;
- the super-admin page checks the session role, appends a student admin, and revokes by id;
- the passkey route generates a six-character passkey and picks its status code;
- the election form sets the defaults of a new election and of an added position, and edits one
  position by index.

Every input/output effect becomes a value:
- File reads and writes become `Option` inputs and success flags.
- `fetch` replies become reply records.
- `localStorage` becomes explicit state: a set of voted election ids, the stored one-time code and
  the session record.
- `Date.now()` becomes a `now`/`clock` parameter.
- `Math.random()` becomes an explicit draw index `Math.floor(r · n)` with `draw < n`.

JavaScript values are modelled with the `Json.Value` type:
- `undefined` is `None`.
- Truthiness follows the language.
- `===` compares primitives by value, and arrays and objects never compare equal.
- `Object.entries` order is the order of a sequence of pairs.

The submit route reads `voterId` and never uses it, so it has no server-side duplicate check. `VoteSubmit` models
exactly that: `VoterIdIgnored` and `RepeatedSubmission` state that a second identical
submission counts again. The only "already voted" guard is the dashboard's browser-storage flag
(`VoterDashboard.HandleVoteSubmit`). The dashboard never calls the submit route, so the two
models are not connected.

## Model

| member | source | states |
|---|---|---|
| Seqs.FindFirst | app/api/elections/route.js:44 | `findIndex`/`find`: no index exactly when no element matches; otherwise the index of a matching element with no match before it |
| Seqs.Filter | app/dashboard/super-admin/page.jsx:77 | `Array.prototype.filter`: never longer than the input, and every kept element passes the test |
| Seqs.FilterCounts | app/dashboard/super-admin/page.jsx:77 | filtering keeps each passing element with its full multiplicity and removes every failing one |
| Seqs.FilterAppend | app/dashboard/super-admin/page.jsx:77 | filtering distributes over concatenation |
| Seqs.FilterConjunction | app/api/notifications/send/route.js:45-54 | filtering by a conjunction equals filtering by one test and then by the other, order kept |
| Seqs.FilterKeepAll | app/dashboard/voter/page.jsx:140-158 | a filter every element passes returns the list unchanged |
| Text.Lower | app/login/faculty-admin/page.jsx:81 | `toLowerCase` on ASCII: same length, each upper-case letter mapped to its lower-case letter, everything else kept |
| Text.Upper | app/login/voter/page.jsx:294 | `toUpperCase` on ASCII: same length, each lower-case letter mapped to its upper-case letter, everything else kept |
| Text.LowerAppend | app/login/faculty-admin/page.jsx:81 | lower-casing distributes over concatenation |
| Text.UpperOfLower | app/login/voter/page.jsx:294 | a passkey of digits and capitals survives being typed in lower case and upper-cased by the field |
| Decimal.NatToString | app/api/elections/route.js:22 | decimal rendering of a number: non-empty, only digits, no leading zero except for 0, and it reads back as the number |
| Decimal.NatToStringLength | app/login/student-admin/page.jsx:39 | a number between 10^(k-1) and 10^k has exactly k digits |
| Decimal.LeadingDigits | app/dashboard/student-admin/components/ElectionForm.jsx:130 | the longest all-digit prefix: a prefix, only digits, and followed by a non-digit or the end |
| Decimal.ParseInt | app/dashboard/student-admin/components/ElectionForm.jsx:130 | `parseInt`: NaN exactly when no digit follows the optional sign |
| Decimal.LeadingDigitsOfDigits | app/dashboard/student-admin/components/ElectionForm.jsx:130 | an all-digit string is its own digit prefix |
| Decimal.ParseIntRoundTrip | app/dashboard/student-admin/components/ElectionForm.jsx:130 | `parseInt` reads back the decimal rendering of n and of -n |
| Json.Get | app/api/elections/route.js:44 | property lookup: defined exactly for the object's keys, with the stored value |
| VoteSubmit.TotalRemove | app/api/votes/submit/route.js:20-36 | a position's vote sum splits into one candidate's votes plus the sum of the rest |
| VoteSubmit.TotalIncrement | app/api/votes/submit/route.js:27-34 | one increment, including the lazy creation at 0, raises the position's sum by exactly 1 |
| VoteSubmit.AddSelections | app/api/votes/submit/route.js:26-35 | the candidates afterwards are the old ones plus the selected ones; each candidate gains exactly its number of occurrences in the list; every selected candidate is stamped with the time; unselected candidates keep their entries |
| VoteSubmit.AddSelectionsTotal | app/api/votes/submit/route.js:26-35 | the position's vote sum rises by exactly the length of its selection list |
| VoteSubmit.RecordPositions | app/api/votes/submit/route.js:20-36 | the positions afterwards are the old ones plus those on the ballot, the missing ones created empty |
| VoteSubmit.RecordPositionsCounts | app/api/votes/submit/route.js:20-36 | each candidate of each position gains exactly the number of times the ballot selects it there, even when a position appears in several entries |
| VoteSubmit.RecordPositionsStamp | app/api/votes/submit/route.js:27-34 | a selected candidate exists afterwards and carries the time of this vote |
| VoteSubmit.RecordPositionsUnselected | app/api/votes/submit/route.js:26-35 | a candidate the ballot never selects keeps its entry unchanged |
| VoteSubmit.RecordPositionsUntouched | app/api/votes/submit/route.js:20-36 | a position absent from the ballot is left as it was |
| VoteSubmit.RecordPositionsTotal | app/api/votes/submit/route.js:20-36 | each position's sum grows by exactly the number of selections made for it |
| VoteSubmit.RecordVote | app/api/votes/submit/route.js:15-47 | only this election's tally and turnout change; the election and its status record are created when missing; `totalVoted` grows by exactly 1 whatever the number of selections; `totalEligibleVoters` is kept; the status is stamped |
| VoteSubmit.RecordVoteCounts | app/api/votes/submit/route.js:15-47 | across the whole document: per-candidate counts grow by the ballot's occurrences, position sums by the selection count, selected candidates are stamped, unselected ones kept |
| VoteSubmit.RecordVoteUntouched | app/api/votes/submit/route.js:15-47 | positions absent from the ballot are unchanged |
| VoteSubmit.Submit | app/api/votes/submit/route.js:6-57 | 200 "Vote recorded successfully" with the document `RecordVote` makes from the stored one, the ballot and the time, exactly when the file is readable, the request has `votes` and the write succeeds; otherwise 500 "Failed to record vote" and nothing written |
| VoteSubmit.OccurrencesOfEntry | app/api/votes/submit/route.js:20 | on a ballot whose positions are distinct, a candidate's occurrences at a position are its count in that position's list |
| VoteSubmit.AbsentPosition | app/api/votes/submit/route.js:20 | a position the ballot does not name receives no selections |
| VoteSubmit.VoterIdIgnored | app/api/votes/submit/route.js:8 | the outcome does not depend on `voterId` |
| VoteSubmit.RepeatedSubmission | app/api/votes/submit/route.js:8-47 | submitting the same ballot twice counts it twice and raises `totalVoted` by 2 |
| VoterDashboard.GetElectionStatus | app/dashboard/voter/page.jsx:84-116 | an error status exactly when the timeline is missing, or a time is NaN or 0; `canVote` iff start ≤ now ≤ end, and then active; upcoming iff now < start; ended iff start ≤ now and now > end, so a timeline that ends before it starts reads upcoming until its start; `timeLeft` is end − now; the text matches the status |
| VoterDashboard.IsElectionActive | app/dashboard/voter/page.jsx:123-134 | active iff both times parse and start ≤ now ≤ end |
| VoterDashboard.ActiveAgreesWithStatus | app/dashboard/voter/page.jsx:84-134 | on a usable timeline the two checks agree, and `canVote` always implies active; they differ only for a time of 0 |
| VoterDashboard.IsVoterEligible | app/dashboard/voter/page.jsx:118-121 | every voter is eligible for every election |
| VoterDashboard.FilterEligibleElections | app/dashboard/voter/page.jsx:136-168 | an election is listed iff it is in the input and active, with its full multiplicity |
| VoterDashboard.EligibleAreTheActive | app/dashboard/voter/page.jsx:140-158 | the list is exactly the active elections in their original order |
| VoterDashboard.CalculateTimeLeftAsWritten | app/dashboard/voter/page.jsx:170-177 | as written, the "Starts in" count of an upcoming election is the whole days until its end |
| VoterDashboard.CalculateTimeLeft | app/dashboard/voter/page.jsx:170-177 | invalid exactly for an unusable timeline, ended exactly for ended, and otherwise the floor of the whole days until the start (upcoming) or the end (active) |
| VoterDashboard.TimeLeftDiffersOnlyWhenUpcoming | app/dashboard/voter/page.jsx:170-177 | the written and the corrected texts agree on every election that is not upcoming, and both say "Starts in" exactly for the upcoming ones |
| VoterDashboard.StartsInCountsToTheEnd | app/dashboard/voter/page.jsx:175 | an election starting in one day and ending in ten says "Starts in 10 days" as written, and 1 day when corrected |
| VoterDashboard.FindPosition | app/dashboard/voter/page.jsx:181 | `find`: the first position with the id, and none exactly when no position has it |
| VoterDashboard.EffectiveMax | app/dashboard/voter/page.jsx:182 | `maxSelections \|\| 1`: 1 when the value is absent, NaN or 0, and otherwise the value itself |
| VoterDashboard.Without | app/dashboard/voter/page.jsx:191 | removing a candidate drops every copy of it and keeps every other id with its multiplicity |
| VoterDashboard.WithoutAppend | app/dashboard/voter/page.jsx:191 | removal works in list order: removing from two joined lists is removing from each and joining the results |
| VoterDashboard.WithoutAt | app/dashboard/voter/page.jsx:188-193 | on a list without duplicates, removing the candidate at index i cuts out exactly that element, the others kept in order |
| VoterDashboard.ToggleCandidate | app/dashboard/voter/page.jsx:180-203 | an unknown position throws; a position without a list gets the singleton; a selected candidate is removed by the order-keeping removal and nothing else changes; an unselected one is appended iff the list is below the effective maximum; a full position leaves the selections unchanged; other positions never change |
| VoterDashboard.WithoutNoDuplicates | app/dashboard/voter/page.jsx:191 | removing a candidate keeps a list duplicate-free and no longer |
| VoterDashboard.ToggleKeepsWellFormed | app/dashboard/voter/page.jsx:180-203 | toggling keeps every list duplicate-free, attached to a known position, and within that position's bound |
| VoterDashboard.UpdateKeepsWellFormed | app/dashboard/voter/page.jsx:184-199 | replacing one known position's list by a short enough list without duplicates keeps the selections well formed |
| VoterDashboard.WithoutAppended | app/dashboard/voter/page.jsx:188-199 | removing a just-appended candidate restores the list |
| VoterDashboard.ToggleTwice | app/dashboard/voter/page.jsx:180-203 | toggling a candidate on and then off restores the selections |
| VoterDashboard.Titles | app/dashboard/voter/page.jsx:216 | the titles of the incomplete positions, in order |
| VoterDashboard.HandleVoteSubmit | app/dashboard/voter/page.jsx:206-227 | submitted iff every position has exactly `maxSelections` picks and the voted flag is not set, and then the flag is set; an incomplete ballot is rejected with the missing titles; a set flag rejects with the already-voted message |
| VoterDashboard.SubmitOnce | app/dashboard/voter/page.jsx:220-227 | after one successful submission no later submission for that election succeeds |
| VoterDashboard.HandleElectionClick | app/dashboard/voter/page.jsx:253-267 | an election whose flag is set is not opened; any other one becomes the active election |
| ResultsRanking.WinnerIndex | app/dashboard/student-admin/components/ResultsManager.jsx:73-80 | no winner iff no candidates; otherwise a candidate with at least every other's votes and strictly more than every earlier one |
| ResultsRanking.GetWinningCandidate | app/dashboard/student-admin/components/ResultsManager.jsx:73-80 | `null` iff empty; otherwise the earliest candidate with the most votes |
| ResultsRanking.Insert | app/dashboard/student-admin/components/ResultsManager.jsx:196 | inserting adds exactly one row to the multiset |
| ResultsRanking.InsertDescending | app/dashboard/student-admin/components/ResultsManager.jsx:196 | inserting into a non-increasing ranking keeps it non-increasing |
| ResultsRanking.SortByVotes | app/dashboard/student-admin/components/ResultsManager.jsx:196 | the sort is a permutation and non-increasing by votes |
| ResultsRanking.FilterSingle | app/dashboard/student-admin/components/ResultsManager.jsx:196 | a single row with the vote count is kept, any other is dropped |
| ResultsRanking.InsertKeepsTies | app/dashboard/student-admin/components/ResultsManager.jsx:196 | inserting places the new row before the rows with as many votes |
| ResultsRanking.PassHigher | app/dashboard/student-admin/components/ResultsManager.jsx:196 | moving a row past a row with more votes keeps the order within each vote count |
| ResultsRanking.SortKeepsTies | app/dashboard/student-admin/components/ResultsManager.jsx:196 | the sort is stable: rows with equal votes keep their input order |
| ResultsRanking.WithTrends | app/dashboard/student-admin/components/ResultsManager.jsx:189-195 | one row per candidate with its id, votes and name; the trend is current minus previous votes, or 0 without a snapshot; a snapshot lacking a candidate throws |
| ResultsRanking.TrendsKeepCandidates | app/dashboard/student-admin/components/ResultsManager.jsx:189-195 | dropping the trends from the rows gives back the candidate list, in order, whatever the snapshot |
| ResultsRanking.TrendsAgainstCurrentVotes | app/dashboard/student-admin/components/ResultsManager.jsx:189-195 | a snapshot holding every candidate's current votes gives all-zero trends, the same rows as no snapshot |
| ResultsRanking.SortedCandidates | app/dashboard/student-admin/components/ResultsManager.jsx:189-196 | defined exactly when the trends are; a non-increasing permutation of the rows |
| ResultsRanking.FilterHead | app/dashboard/student-admin/components/ResultsManager.jsx:198 | the first row a filter keeps is the first row that passes it |
| ResultsRanking.SortedHeadVotes | app/dashboard/student-admin/components/ResultsManager.jsx:198 | the first row of the ranking has the most votes |
| ResultsRanking.RankingHeadIsWinner | app/dashboard/student-admin/components/ResultsManager.jsx:73-80 | the head of `sortedCandidates` is the candidate `getWinningCandidate` picks |
| ResultsRanking.GetVoteMargin | app/dashboard/student-admin/components/ResultsManager.jsx:82-85 | no margin iff fewer than two rows; otherwise the vote difference of the first two and the winner's votes |
| ResultsRanking.MarginNonNegative | app/dashboard/student-admin/components/ResultsManager.jsx:82-85 | on a ranking the difference lies between 0 and the winner's votes |
| ResultsRanking.CalculatePercentage | app/dashboard/student-admin/components/ResultsManager.jsx:98-101 | 0 iff the total is 0; otherwise a share with a positive total |
| ElectionsApi.GeneratedId | app/api/elections/route.js:22 | `election_` followed by digits that read back as the clock |
| ElectionsApi.NewElection | app/api/elections/route.js:22-27 | the body's fields plus `id` and `status`; `status` is always "active"; the body's `id` overrides the generated one; every other body field is kept |
| ElectionsApi.CreateElection | app/api/elections/route.js:29 | one election more, at the end, the earlier ones unchanged |
| ElectionsApi.Merge | app/api/elections/route.js:49 | shallow merge: the union of the keys, body fields win, the rest kept |
| ElectionsApi.UpdateElection | app/api/elections/route.js:44-50 | nothing iff no election has the body's id; otherwise only the first match is replaced by the merge, with length and all other entries unchanged |
| ElectionsApi.UpdateIdempotent | app/api/elections/route.js:44-50 | repeating the same update changes nothing more |
| ElectionsApi.Post | app/api/elections/route.js:15-36 | 200 with the new election and the appended list iff the file reads and the write succeeds; otherwise 500 "Failed to create election" and nothing written |
| ElectionsApi.Put | app/api/elections/route.js:38-56 | 404 "Election not found" iff no election has the id, and nothing is written; 200 with the merged election iff found and written; otherwise 500 |
| Notifications.RemindersAreTheAudienceNotVoted | app/api/notifications/send/route.js:45-76 | the reminder recipients are the results audience less those who have voted, in the same order |
| Notifications.Mails | app/api/notifications/send/route.js:57-60 | exactly one email per recipient, to that recipient's address, with the subject |
| Notifications.Deliver | app/api/notifications/send/route.js:41-89 | one email per voter the filter admits; success iff every send succeeds or there is none; an election without eligibility throws on its first voter; the reminder's timeline read is checked before it, in Remind |
| Notifications.Remind | app/api/notifications/send/route.js:43-60 | the reminder branch: a stored election without a usable `timeline` throws on its first recipient, answering 500 with nothing sent; otherwise the reminders go out as Deliver states; a successful reminder that mails anyone needs a timeline and a working transport |
| Notifications.SendAsWritten | app/api/notifications/send/route.js:21-90 | as written: unreadable files answer 500; an unknown election answers 404 with no emails; a reminder for the first election with the id is the reminder branch; a results request always answers 500 with no emails |
| Notifications.Send | app/api/notifications/send/route.js:21-90 | the lookup takes the first election with the id; reminders follow the reminder branch, including its 500 for a missing timeline; results go to the whole audience; another type sends nothing and reports success |
| Notifications.SendDiffersOnlyOnResults | app/api/notifications/send/route.js:62-81 | the written and the corrected route agree on every request that is not a results request |
| Notifications.ReminderWithoutTimelineFails | app/api/notifications/send/route.js:57-58 | a reminder for an election stored without `timeline`, with one eligible voter who has not voted and a working transport, answers 500 and mails nobody, in both versions of the route |
| Notifications.ResultsBranchAlwaysFails | app/api/notifications/send/route.js:64 | a results request for a known election with an eligible voter fails as written and mails that voter when corrected |
| Notifications.RecipientsAreTheAudience | app/api/notifications/send/route.js:45-76 | the audience keeps each matching voter with its multiplicity; a voter gets a reminder iff in the audience and not voted; reminders never outnumber the audience |
| FacultyLogin.LastIndexOf | app/login/faculty-admin/page.jsx:74 | the last occurrence of a character, or none exactly when it does not occur |
| FacultyLogin.IsWellFormed | app/login/faculty-admin/page.jsx:74 | decides the address pattern: local part `[A-Za-z0-9._-]+`, `@`, domain `[A-Za-z0-9.-]+`, `.`, and 2 to 6 letters |
| FacultyLogin.OnlyCut | app/login/faculty-admin/page.jsx:74 | a matching address has its `@` first and its last dot before the top-level domain |
| FacultyLogin.ValidateEmail | app/login/faculty-admin/page.jsx:73-85 | empty first, then the pattern, then the `.edu` suffix in any case; the empty message iff all three pass |
| FacultyLogin.ValidatePassword | app/login/faculty-admin/page.jsx:87-95 | empty gives "required", shorter than 8 gives "too short", and the empty message iff at least 8 characters |
| FacultyLogin.EducationalAddressIsValid | app/login/faculty-admin/page.jsx:73-85 | any address `local@domain.edu` with allowed characters, in any case of `edu`, passes |
| FacultyLogin.EduIsLetters | app/login/faculty-admin/page.jsx:74 | a top-level domain that lower-cases to `edu` is three letters |
| FacultyLogin.PartsShape | app/login/faculty-admin/page.jsx:74 | well-formed parts joined with `@` and `.` have the address shape |
| FacultyLogin.RouteFor | app/login/faculty-admin/page.jsx:158-162 | the super-admin dashboard iff the role is `faculty_super_admin` |
| FacultyLogin.HandleSubmit | app/login/faculty-admin/page.jsx:118-169 | field errors iff a validator fails; then "Invalid credentials…" iff no admin matches email and password; otherwise logged in as a matching admin |
| FacultyLogin.ValidationPrecedesLookup | app/login/faculty-admin/page.jsx:127-135 | when a validator fails, the admin list plays no role |
| FacultyLogin.SuperAdminRoute | app/login/faculty-admin/page.jsx:140-162 | a login stores the first matching admin and reaches the super-admin dashboard iff that admin's role is `faculty_super_admin` |
| SendPasskey.Alphabet | app/api/auth/send-passkey/route.js:5 | 36 characters, the digits then the capitals |
| SendPasskey.AlphabetChar | app/api/auth/send-passkey/route.js:5 | index d below 10 is the digit d, and from 10 on the letter d − 10 of the alphabet |
| SendPasskey.AlphabetSpelledOut | app/api/auth/send-passkey/route.js:5 | the alphabet is literally `0-9A-Z` |
| SendPasskey.AlphabetIndex | app/api/auth/send-passkey/route.js:8 | every digit and capital has an index whose character it is |
| SendPasskey.AlphabetChars | app/api/auth/send-passkey/route.js:8 | each alphabet character is a digit or a capital, and its index reads back |
| SendPasskey.GeneratePasskey | app/api/auth/send-passkey/route.js:4-11 | exactly 6 characters; character i is the alphabet character at draw i; each is a digit or capital; the draws are recoverable |
| SendPasskey.Post | app/api/auth/send-passkey/route.js:13-50 | unreadable body 500 "Server error"; falsy email 400 "Email is required"; failed send 500 "Email service error"; 200 with a generated passkey iff email and send succeed, and a passkey only then |
| VoterLogin.ValidateEmail | app/login/voter/page.jsx:37-46 | the `@college.edu` suffix first, then the lookup; found iff the suffix holds and some voter has the address, and then the first such voter |
| VoterLogin.InitialSubmit | app/login/voter/page.jsx:48-86 | empty fields first, then the address check, the roll number, and the send reply; the passkey step opens only after a 2xx reply and then with no error; the form fields and session are kept |
| VoterLogin.TypePasskey | app/login/voter/page.jsx:294 | the stored passkey has no lower-case letters, is as long as and lower-cases like what was typed, and nothing else changes |
| VoterLogin.PasskeySubmit | app/login/voter/page.jsx:88-126 | empty, wrong or unknown-voter passkeys fail in that order; success iff the passkey equals the stored one and the voter exists, and then the session is authenticated with the form's email, roll number, the voter's name and the clock |
| VoterLogin.PasskeyLoginSucceeds | app/login/voter/page.jsx:48-126 | a voter who passes the first step and types the delivered passkey, in either case, logs in |
| StudentAdminLogin.GenerateOTP | app/login/student-admin/page.jsx:38-40 | six digits without a leading zero, with value 100000 + draw, so within 100000..999999 |
| StudentAdminLogin.OTPDeterminesDraw | app/login/student-admin/page.jsx:38-40 | different draws give different codes, and `parseInt` reads the code back |
| StudentAdminLogin.HandleSubmit | app/login/student-admin/page.jsx:42-93 | no matching admin gives "Invalid email or password"; otherwise the code is stored and the admin validated, and the code step opens only when the send succeeded |
| StudentAdminLogin.HandleOTPSubmit | app/login/student-admin/page.jsx:95-124 | a code unequal to the stored one gives "Invalid OTP" and keeps it; an equal one removes it and stores the admin's id, name, email, role, permissions and department |
| StudentAdminLogin.OTPSingleUse | app/login/student-admin/page.jsx:101-107 | the same code cannot succeed twice |
| StudentAdminLogin.LoginWithDeliveredOTP | app/login/student-admin/page.jsx:71-124 | an admin who matches and types the delivered code logs in |
| StudentAdminLogin.WrongOTPKeepsStored | app/login/student-admin/page.jsx:101-105 | a wrong code fails and leaves the stored code in place |
| SuperAdmin.CheckAccess | app/dashboard/super-admin/page.jsx:21-41 | admitted iff a session is stored and its role is `faculty_super_admin` |
| SuperAdmin.StrArr | app/dashboard/super-admin/page.jsx:17 | a list of strings as a JSON array, element by element |
| SuperAdmin.LoginRouteAgreesWithAccess | app/dashboard/super-admin/page.jsx:33-38 | the session a faculty login stores is admitted iff that login routed to the super-admin dashboard |
| SuperAdmin.DefaultForm | app/dashboard/super-admin/page.jsx:12-18 | empty name, email and department, the year '' and the permissions `manage_candidates`, `view_results` |
| SuperAdmin.SelectYear | app/dashboard/super-admin/page.jsx:335-337 | the year holds `parseInt` of the chosen option, a number or null for NaN, and nothing else in the form changes |
| SuperAdmin.YearOptions | app/dashboard/super-admin/page.jsx:337-346 | the options "Year 1" to "Year 5" store the numbers 1 to 5, and "Select year" stores null |
| SuperAdmin.FormFields | app/dashboard/super-admin/page.jsx:55 | the form's five fields, each with its value; the year as the form holds it |
| SuperAdmin.AdminId | app/dashboard/super-admin/page.jsx:51 | `A` followed by four digits whose value is 1000 + draw, within 1000..9999 |
| SuperAdmin.Stamp | app/dashboard/super-admin/page.jsx:51-54 | the generated id, role `student_admin`, the date, and the assigning admin's email when defined |
| SuperAdmin.NewAdmin | app/dashboard/super-admin/page.jsx:50-56 | the stamp's keys and the form's keys; the form's fields win over the stamp's |
| SuperAdmin.NewAdminFields | app/dashboard/super-admin/page.jsx:50-56 | the new admin has role `student_admin`, the generated id, the date, and the form's name, email, department, year (as picked) and permissions |
| SuperAdmin.AddAdmin | app/dashboard/super-admin/page.jsx:48-72 | exactly one admin appended, the existing ones kept in order, and the form reset to its default |
| SuperAdmin.Revoke | app/dashboard/super-admin/page.jsx:74-85 | unconfirmed changes nothing; confirmed leaves no admin with the id and never grows the list |
| SuperAdmin.RevokeKeepsOthers | app/dashboard/super-admin/page.jsx:77 | every admin with another id stays with its multiplicity; revoking a joined list revokes each part, and a single entry stays iff its id differs, so the kept entries keep their order |
| SuperAdmin.RevokeUndoesAdd | app/dashboard/super-admin/page.jsx:48-85 | revoking a just-added admin whose id was fresh restores the list |
| ElectionForm.BlankForm | app/dashboard/student-admin/components/ElectionForm.jsx:5-22 | no positions or rules, empty title and description, `requireAllPositions` and `requireConfirmation` true, `allowRevote` false |
| ElectionForm.InitialForm | app/dashboard/student-admin/components/ElectionForm.jsx:5 | an edited election is taken unchanged; otherwise the blank form |
| ElectionForm.NewPosition | app/dashboard/student-admin/components/ElectionForm.jsx:27-32 | an empty title, `maxSelections` 1, no candidates, and the id `pos_` + clock |
| ElectionForm.AddPosition | app/dashboard/student-admin/components/ElectionForm.jsx:24-34 | defined iff the form has a positions array; exactly one new position at the end, the existing positions and all other fields unchanged |
| ElectionForm.EditPosition | app/dashboard/student-admin/components/ElectionForm.jsx:117-131 | only position idx changes, and only in the edited key |
| ElectionForm.SetPositionTitle | app/dashboard/student-admin/components/ElectionForm.jsx:117-121 | position idx gets the title and keeps its other fields; the other positions, the list length and the other form keys stay |
| ElectionForm.SelectionValue | app/dashboard/student-admin/components/ElectionForm.jsx:130 | the parsed number, or null for NaN |
| ElectionForm.SetMaxSelections | app/dashboard/student-admin/components/ElectionForm.jsx:127-131 | position idx gets the parsed value and keeps its other fields; the other positions, the list length and the other form keys stay |
| ElectionForm.TypedNumberIsStored | app/dashboard/student-admin/components/ElectionForm.jsx:130 | typing n or -n stores that number |
| ElectionForm.AddThenTitle | app/dashboard/student-admin/components/ElectionForm.jsx:24-34 | titling a just-added position changes only that position's title |
| ElectionForm.BlankFormFirstPosition | app/dashboard/student-admin/components/ElectionForm.jsx:5-34 | adding to a new form gives exactly the one default position |

## Left out

- Concurrency: concurrent read-modify-write cycles on the JSON files, which can lose updates, are not modelled. Each request is one step on a value.
- The `GET` handlers of the elections route are not modelled; they only read a file. The same holds for the election-by-id, candidates and results routes.
- Email delivery is reduced to a success flag or a reply record: `lib/nodemailer.js`, `app/api/auth/send-otp/route.js`, and the email templates and their text.
- Server-sent events (`app/api/elections/updates/route.js`, `lib/eventEmitter.js`) and `lib/utils/jwt.js` are not modelled. They are streaming and token plumbing with no election rule.
- Floating-point arithmetic: `toFixed` percentages, the margin's ratio and the close-race flag are not computed. The margin and the percentage keep the integers their ratio is made from.
- Date parsing: `new Date(...)` is reduced to an optional integer, `None` for NaN. `toISOString().split('T')[0]` is a `today` string parameter.
- Text: case mapping is ASCII only, and string length counts characters, not UTF-16 code units.
- Decimal.ParseInt: does not model leading white space, hexadecimal prefixes or numbers past 2^53. Only the sign and the decimal digit prefix are modelled.
- ElectionForm.SetMaxSelections and SuperAdmin.SelectYear: a NaN from `parseInt` is stored as `null`. That is the value `JSON.stringify` writes for it; the in-memory NaN is not modelled.
- ElectionForm.AddPosition: a `positions` value that is not an array gives `None`. The spread of a string, which does not throw, is treated like the other non-arrays.
- Network failures of `fetch` are not modelled. Only the status and body of a reply are.
- StudentAdminLogin.HandleOTPSubmit: with no validated admin, the error text is V8's TypeError message for reading `id` of null. Other engines word it differently.
- Pure UI is not modelled: markup, dark mode, `handleBlur` and `handleChange` error display, loaders, timers and router pushes. Router pushes appear only as the route or session chosen.
- The voter dashboard never calls the vote-submit route, so the two models stay separate.
- `Math.random()` becomes an explicit draw index. The uniformity of the draws is not modelled.
- Request bodies that are JSON but not objects are not modelled.
- A request body that fails to parse is modelled only by SendPasskey.Post, whose body is `None` then. In the elections, votes and notifications routes, the parse failure is caught by the same `try` as the file read and gives the same 500. There it is folded into the unreadable-file input (`stored`, `file`, `filesRead`).
- ElectionForm.EditPosition: the in-place mutation of the shared position object is not modelled. The handlers copy the list shallowly and assign into the position object, which the previous state and an edited `election` prop share. The model builds a new position instead.
- VoteSubmit.Submit: one `now` stands for every `new Date()` read of a request. The source reads the clock once per selected candidate and once for the turnout record, and the readings can differ by milliseconds.
- SuperAdmin.Stamp: an undefined `admin.email` is omitted, matching what `JSON.stringify` writes to storage.
- Notifications.Deliver: the contract names the emails attempted, but not which sends failed when `Promise.all` rejects. Any failure gives 500.
- Pass-through fields that are not modelled: the notification's custom message, and the per-email content. The one read of the reminder text that can throw, `election.timeline.startDate`, is modelled (Notifications.Remind).
- VoterDashboard.CalculateTimeLeft: the day counts are integers, not the text of the message.

## Findings

| source | as written | input that shows it | evidently intended | confidence | as-written member | corrected member |
|---|---|---|---|---|---|---|
| app/dashboard/voter/page.jsx:175 | the "Starts in N days" count of an upcoming election divides `status.timeLeft`, which is the time until the END of the election | an election starting one day from now and ending ten days from now reads "Starts in 10 days" (`VoterDashboard.StartsInCountsToTheEnd`) | the whole days until the start, "Starts in 1 days" | not executed; high | VoterDashboard.CalculateTimeLeftAsWritten | VoterDashboard.CalculateTimeLeft |
| app/api/notifications/send/route.js:64 | the `results` branch calls `calculateResults`, which the file neither defines nor imports, so it throws before any email and the route answers 500 | a `results` request for a known election with one eligible voter and a working transport answers 500 and mails nobody (`Notifications.ResultsBranchAlwaysFails`) | one "Election Results" email to each voter of the election's audience | not executed; high | Notifications.SendAsWritten | Notifications.Send |

=== FILE: decimal.dfy ===
/** Decimal rendering of naturals (`String(n)`, template interpolation) and the
    prefix parse of `parseInt`. */
module Decimal {
  import opened Wrappers
  import opened Text

  predicate AllDigits(s: string) {
    forall i :: 0 <= i < |s| ==> IsDigit(s[i])
  }

  function DigitChar(d: nat): (c: char)
    requires d < 10
    ensures IsDigit(c) && c as int - '0' as int == d
  {
    ('0' as int + d) as char
  }

  function DigitValue(c: char): (d: nat)
    requires IsDigit(c)
    ensures d < 10
  {
    c as int - '0' as int
  }

  /** The number a string of decimal digits denotes. */
  function DigitsValue(s: string): nat
    requires AllDigits(s)
  {
    if s == [] then 0 else DigitsValue(s[..|s| - 1]) * 10 + DigitValue(s[|s| - 1])
  }

  function Pow10(k: nat): (p: nat)
    ensures p >= 1
  {
    if k == 0 then 1 else 10 * Pow10(k - 1)
  }

  /** The shortest decimal rendering of `n`: digits only, no leading zero, and it reads
      back as `n`. */
  function NatToString(n: nat): (s: string)
    ensures 1 <= |s| && AllDigits(s)
    ensures s[0] != '0' || n == 0
    ensures DigitsValue(s) == n
  {
    if n < 10 then [DigitChar(n)]
    else
      var prefix := NatToString(n / 10);
      var s := prefix + [DigitChar(n % 10)];
      assert s[..|s| - 1] == prefix;
      s
  }

  /** `n` has exactly `k` decimal digits when it lies in `[10^(k-1), 10^k)`. */
  lemma {:induction false} NatToStringLength(n: nat, k: nat)
    requires 1 <= k && Pow10(k - 1) <= n < Pow10(k)
    ensures |NatToString(n)| == k
  {
    if k > 1 {
      assert Pow10(k - 1) == 10 * Pow10(k - 2);
      assert Pow10(k - 2) <= n / 10 < Pow10(k - 1);
      NatToStringLength(n / 10, k - 1);
    }
  }

  /** The longest prefix of `s` made of decimal digits. */
  function LeadingDigits(s: string): (r: string)
    ensures |r| <= |s| && r == s[..|r|] && AllDigits(r)
    ensures |r| == |s| || !IsDigit(s[|r|])
  {
    if s == [] || !IsDigit(s[0]) then []
    else
      var tail := LeadingDigits(s[1..]);
      assert s[..1 + |tail|] == [s[0]] + tail;
      [s[0]] + tail
  }

  /** `parseInt(s)` on the text of a number input: an optional sign, then the longest
      run of digits; `None` (NaN) when there are no digits. */
  function ParseInt(s: string): (r: Option<int>)
    ensures r.None? <==> LeadingDigits(if |s| > 0 && (s[0] == '-' || s[0] == '+') then s[1..] else s) == []
  {
    var negative := |s| > 0 && s[0] == '-';
    var body := if |s| > 0 && (s[0] == '-' || s[0] == '+') then s[1..] else s;
    var digits := LeadingDigits(body);
    if digits == [] then None
    else if negative then Some(-(DigitsValue(digits) as int))
    else Some(DigitsValue(digits))
  }

  /** A digit string is its own longest digit prefix. */
  lemma {:induction false} LeadingDigitsOfDigits(s: string)
    requires AllDigits(s)
    ensures LeadingDigits(s) == s
  {
    if s != [] {
      LeadingDigitsOfDigits(s[1..]);
    }
  }

  /** `parseInt` reads back what `String(n)` renders, with or without a minus sign. */
  lemma ParseIntRoundTrip(n: nat)
    ensures ParseInt(NatToString(n)) == Some(n)
    ensures ParseInt("-" + NatToString(n)) == Some(-(n as int))
  {
    var s := NatToString(n);
    LeadingDigitsOfDigits(s);
    assert ("-" + s)[1..] == s;
  }
}

=== FILE: election_form.dfy ===
/** The election form of the student-admin dashboard: the form it starts from, adding
    a position, and the per-position title and `maxSelections` edits. The form is the
    JSON object that is later submitted as an election. */
module ElectionForm {
  import opened Wrappers
  import opened Json
  import opened Decimal

  /** The blank form of lines 5-22. */
  function BlankForm(): (f: Object)
    ensures Get(f, "positions") == Some(Arr([])) && Get(f, "rules") == Some(Arr([]))
    ensures Get(f, "title") == Some(Str("")) && Get(f, "description") == Some(Str(""))
    ensures Get(f, "validation") == Some(Obj(map["requireAllPositions" := Bool(true), "allowRevote" := Bool(false),
                                               "requireConfirmation" := Bool(true)]))
    ensures f.Keys == {"title", "description", "eligibility", "positions", "timeline", "validation", "rules"}
  {
    map["title" := Str(""),
        "description" := Str(""),
        "eligibility" := Obj(map["yearOfStudy" := Arr([]), "stream" := Str("")]),
        "positions" := Arr([]),
        "timeline" := Obj(map["startDate" := Str(""), "endDate" := Str(""), "resultDate" := Str(""),
                              "minVotingDuration" := Str("24h")]),
        "validation" := Obj(map["requireAllPositions" := Bool(true), "allowRevote" := Bool(false),
                                "requireConfirmation" := Bool(true)]),
        "rules" := Arr([])]
  }

  /** `useState(election || blank)`: an election to edit is taken as it is (an object
      is always truthy); with none the form is blank. */
  function InitialForm(election: Option<Object>): (f: Object)
    ensures election.Some? ==> f == election.value
    ensures election.None? ==> f == BlankForm()
  {
    match election
    case Some(e) => e
    case None => BlankForm()
  }

  /** The position addPosition appends (lines 27-32). */
  function NewPosition(clock: nat): (p: Object)
    ensures p.Keys == {"id", "title", "maxSelections", "candidates"}
    ensures p["title"] == Str("") && p["maxSelections"] == Num(1) && p["candidates"] == Arr([])
    ensures p["id"] == Str("pos_" + NatToString(clock))
  {
    map["id" := Str("pos_" + NatToString(clock)), "title" := Str(""), "maxSelections" := Num(1),
        "candidates" := Arr([])]
  }

  /** The form's positions, when they are a list. */
  function Positions(form: Object): Option<seq<Value>> {
    match Get(form, "positions")
    case Some(Arr(ps)) => Some(ps)
    case _ => None
  }

  /** addPosition (lines 24-34): one position more at the end, everything else as it was.
      `None` stands for the TypeError of spreading positions that are not a list. */
  function AddPosition(form: Object, clock: nat): (r: Option<Object>)
    ensures r.Some? <==> Positions(form).Some?
    ensures r.Some? ==>
              && r.value.Keys == form.Keys
              && Positions(r.value) == Some(Positions(form).value + [Obj(NewPosition(clock))])
              && forall k :: k in form && k != "positions" ==> r.value[k] == form[k]
  {
    match Positions(form)
    case None => None
    case Some(ps) => Some(form["positions" := Arr(ps + [Obj(NewPosition(clock))])])
  }

  /** Position `idx` is an object of the form's list, as the edit fields render it. */
  predicate EditablePosition(form: Object, idx: nat) {
    Positions(form).Some? && idx < |Positions(form).value| && Positions(form).value[idx].Obj?
  }

  /** `newPositions[idx][key] = v` on a copy of the list, then the form with that list. */
  function EditPosition(form: Object, idx: nat, key: string, v: Value): (r: Object)
    requires EditablePosition(form, idx)
    ensures r.Keys == form.Keys
    ensures forall k :: k in form && k != "positions" ==> r[k] == form[k]
    ensures Positions(r).Some? && |Positions(r).value| == |Positions(form).value|
    ensures forall j :: 0 <= j < |Positions(form).value| && j != idx ==> Positions(r).value[j] == Positions(form).value[j]
    ensures Positions(r).value[idx] == Obj(Positions(form).value[idx].fields[key := v])
  {
    var ps := Positions(form).value;
    form["positions" := Arr(ps[idx := Obj(ps[idx].fields[key := v])])]
  }

  /** The title field's change handler (lines 117-121). */
  function SetPositionTitle(form: Object, idx: nat, title: string): (r: Object)
    requires EditablePosition(form, idx)
    ensures EditablePosition(r, idx)
    ensures Get(Positions(r).value[idx].fields, "title") == Some(Str(title))
    ensures forall k :: k in Positions(form).value[idx].fields && k != "title" ==>
              Get(Positions(r).value[idx].fields, k) == Get(Positions(form).value[idx].fields, k)
    ensures r.Keys == form.Keys
    ensures forall k :: k in form && k != "positions" ==> r[k] == form[k]
    ensures |Positions(r).value| == |Positions(form).value|
    ensures forall j :: 0 <= j < |Positions(form).value| && j != idx ==> Positions(r).value[j] == Positions(form).value[j]
  {
    EditPosition(form, idx, "title", Str(title))
  }

  /** The value parseInt gives the field: the number read, or `null` for NaN, which is
      what the form holds once it is saved as JSON. */
  function SelectionValue(text: string): (v: Value)
    ensures ParseInt(text).Some? ==> v == Num(ParseInt(text).value)
    ensures ParseInt(text).None? ==> v == Null
  {
    match ParseInt(text)
    case Some(n) => Num(n)
    case None => Null
  }

  /** The max-selections field's change handler (lines 127-131). */
  function SetMaxSelections(form: Object, idx: nat, text: string): (r: Object)
    requires EditablePosition(form, idx)
    ensures EditablePosition(r, idx)
    ensures Get(Positions(r).value[idx].fields, "maxSelections") == Some(SelectionValue(text))
    ensures forall k :: k in Positions(form).value[idx].fields && k != "maxSelections" ==>
              Get(Positions(r).value[idx].fields, k) == Get(Positions(form).value[idx].fields, k)
    ensures r.Keys == form.Keys
    ensures forall k :: k in form && k != "positions" ==> r[k] == form[k]
    ensures |Positions(r).value| == |Positions(form).value|
    ensures forall j :: 0 <= j < |Positions(form).value| && j != idx ==> Positions(r).value[j] == Positions(form).value[j]
  {
    EditPosition(form, idx, "maxSelections", SelectionValue(text))
  }

  /** Typing a number into the field stores that number. */
  lemma TypedNumberIsStored(form: Object, idx: nat, n: nat)
    requires EditablePosition(form, idx)
    ensures Get(Positions(SetMaxSelections(form, idx, NatToString(n))).value[idx].fields, "maxSelections") == Some(Num(n))
    ensures Get(Positions(SetMaxSelections(form, idx, "-" + NatToString(n))).value[idx].fields, "maxSelections") == Some(Num(-(n as int)))
  {
    ParseIntRoundTrip(n);
  }

  /** A position just added can be titled: it then has that title, one selection and no
      candidates, and the positions before it are untouched. */
  lemma AddThenTitle(form: Object, clock: nat, title: string)
    requires Positions(form).Some?
    ensures var added := AddPosition(form, clock).value;
            var n := |Positions(form).value|;
            && EditablePosition(added, n)
            && var titled := SetPositionTitle(added, n, title);
               && Positions(titled).value[..n] == Positions(form).value
               && Positions(titled).value[n] == Obj(NewPosition(clock)["title" := Str(title)])
  {
    var added := AddPosition(form, clock).value;
    var n := |Positions(form).value|;
    assert Positions(added).value[n] == Obj(NewPosition(clock));
    var titled := SetPositionTitle(added, n, title);
    assert Positions(titled).value[..n] == Positions(form).value by {
      assert forall j :: 0 <= j < n ==> Positions(titled).value[j] == Positions(added).value[j];
      assert forall j :: 0 <= j < n ==> Positions(added).value[j] == Positions(form).value[j];
    }
  }

  /** A blank form gets its first position with the first addition. */
  lemma BlankFormFirstPosition(clock: nat)
    ensures Positions(AddPosition(InitialForm(None), clock).value) == Some([Obj(NewPosition(clock))])
  {
    assert Positions(BlankForm()) == Some([]);
    assert [] + [Obj(NewPosition(clock))] == [Obj(NewPosition(clock))];
  }
}

=== FILE: elections_api.dfy ===
/** The elections route on the `active_elections` list of elections.json: `POST`
    appends a new election whose status is forced to 'active', and `PUT` shallow-merges
    the body into the first election with the body's id. Elections are JSON objects. */
module ElectionsApi {
  import opened Wrappers
  import opened Json
  import opened Decimal
  import opened Seqs

  /** A reply and the list written back, if any. */
  datatype Outcome = Outcome(status: nat, reply: Result, written: Option<seq<Object>>)

  datatype Result = Election(election: Object) | Error(message: string)

  /** The id `POST` generates from the clock: `election_${Date.now()}`. */
  function GeneratedId(clock: nat): (id: string)
    ensures |id| > 9 && id[..9] == "election_" && AllDigits(id[9..]) && DigitsValue(id[9..]) == clock
  {
    var digits := NatToString(clock);
    var id := "election_" + digits;
    assert id[9..] == digits;
    id
  }

  /** `{ id: newId, ...body, status: 'active' }` (lines 22-27): the body's fields,
      an `id` only when the body has none, and the status always 'active'. */
  function NewElection(body: Object, newId: string): (r: Object)
    ensures r.Keys == body.Keys + {"id", "status"}
    ensures r["status"] == Str("active")
    ensures r["id"] == if "id" in body then body["id"] else Str(newId)
    ensures forall k :: k in body && k != "status" ==> r[k] == body[k]
  {
    map["id" := Str(newId)] + body + map["status" := Str("active")]
  }

  /** The push of line 29: one election more, at the end. */
  function CreateElection(elections: seq<Object>, body: Object, newId: string): (r: seq<Object>)
    ensures |r| == |elections| + 1
    ensures r[..|elections|] == elections
    ensures r[|elections|] == NewElection(body, newId)
  {
    elections + [NewElection(body, newId)]
  }

  /** `e => e.id === body.id`. */
  function SameIdAs(body: Object): Object -> bool {
    (e: Object) => StrictEquals(Get(e, "id"), Get(body, "id"))
  }

  /** `{ ...current, ...body }`: every field of either, the body's value winning. */
  function Merge(current: Object, body: Object): (r: Object)
    ensures r.Keys == current.Keys + body.Keys
    ensures forall k :: k in body ==> r[k] == body[k]
    ensures forall k :: k in current && k !in body ==> r[k] == current[k]
  {
    current + body
  }

  /** The update of lines 44-50: `None` when no election has the body's id; otherwise
      the list with only the first match merged, and that match's position. */
  function UpdateElection(elections: seq<Object>, body: Object): (r: Option<(seq<Object>, nat)>)
    ensures r.None? <==> forall j :: 0 <= j < |elections| ==> !SameIdAs(body)(elections[j])
    ensures r.Some? ==>
              var (updated, i) := r.value;
              && |updated| == |elections| && i < |elections|
              && SameIdAs(body)(elections[i])
              && (forall j :: 0 <= j < i ==> !SameIdAs(body)(elections[j]))
              && updated[i] == Merge(elections[i], body)
              && (forall j :: 0 <= j < |elections| && j != i ==> updated[j] == elections[j])
  {
    match FindFirst(elections, SameIdAs(body))
    case None => None
    case Some(i) => Some((elections[i := Merge(elections[i], body)], i))
  }

  /** Sending the same update twice changes nothing the second time. */
  lemma UpdateIdempotent(elections: seq<Object>, body: Object)
    requires UpdateElection(elections, body).Some?
    ensures var (once, i) := UpdateElection(elections, body).value;
            UpdateElection(once, body) == Some((once, i))
  {
    var (once, i) := UpdateElection(elections, body).value;
    assert SameIdAs(body)(once[i]);
    var j := FindFirst(once, SameIdAs(body)).value;
    assert j == i;
    assert Merge(once[i], body) == once[i];
    assert once[i := once[i]] == once;
  }

  /** `POST` (lines 15-36): an unreadable file or a failed write answers 500. */
  function Post(stored: Option<seq<Object>>, body: Object, clock: nat, writeSucceeds: bool): (r: Outcome)
    ensures r.status == 200 <==> stored.Some? && writeSucceeds
    ensures r.status != 200 ==> r.status == 500 && r.reply == Error("Failed to create election") && r.written.None?
    ensures r.status == 200 ==>
              && r.written == Some(CreateElection(stored.value, body, GeneratedId(clock)))
              && r.reply == Election(NewElection(body, GeneratedId(clock)))
  {
    if stored.None? || !writeSucceeds then Outcome(500, Error("Failed to create election"), None)
    else
      var created := NewElection(body, GeneratedId(clock));
      Outcome(200, Election(created), Some(CreateElection(stored.value, body, GeneratedId(clock))))
  }

  /** `PUT` (lines 38-56): an unknown id answers 404 and writes nothing. */
  function Put(stored: Option<seq<Object>>, body: Object, writeSucceeds: bool): (r: Outcome)
    ensures r.status == 404 <==> stored.Some? && UpdateElection(stored.value, body).None?
    ensures r.status == 404 ==> r.reply == Error("Election not found") && r.written.None?
    ensures r.status == 200 <==> stored.Some? && UpdateElection(stored.value, body).Some? && writeSucceeds
    ensures r.status == 200 ==>
              var (updated, i) := UpdateElection(stored.value, body).value;
              r.written == Some(updated) && r.reply == Election(updated[i])
    ensures r.status != 200 && r.status != 404 ==> r.status == 500 && r.written.None?
  {
    if stored.None? then Outcome(500, Error("Failed to update election"), None)
    else match UpdateElection(stored.value, body)
      case None => Outcome(404, Error("Election not found"), None)
      case Some((updated, i)) =>
        if !writeSucceeds then Outcome(500, Error("Failed to update election"), None)
        else Outcome(200, Election(updated[i]), Some(updated))
  }
}

=== FILE: faculty_login.dfy ===
/** The faculty-admin login page: the email and password validators with their ordered
    messages, and the submit decision (validation, credential lookup, dashboard route). */
module FacultyLogin {
  import opened Wrappers
  import opened Seqs
  import opened Text

  // ---------------------------------------------------------------------------
  // The email pattern ^[a-zA-Z0-9._-]+@[a-zA-Z0-9.-]+\.[a-zA-Z]{2,6}$
  // ---------------------------------------------------------------------------

  predicate IsLocalChar(c: char) { IsLetter(c) || IsDigit(c) || c == '.' || c == '_' || c == '-' }
  predicate IsDomainChar(c: char) { IsLetter(c) || IsDigit(c) || c == '.' || c == '-' }

  /** The pattern matched with `@` at `at` and the dot before the top-level label at `dot`. */
  predicate ShapeAt(s: string, at: nat, dot: nat) {
    && 0 < at && at + 1 < dot < |s|
    && s[at] == '@' && s[dot] == '.'
    && All(s[..at], IsLocalChar)
    && All(s[at + 1..dot], IsDomainChar)
    && 2 <= |s| - dot - 1 <= 6
    && All(s[dot + 1..], IsLetter)
  }

  /** What the regular expression accepts: some way of cutting the string matches. */
  ghost predicate MatchesPattern(s: string) {
    exists at: nat, dot: nat :: ShapeAt(s, at, dot)
  }

  function IsAt(): char -> bool { (c: char) => c == '@' }

  /** The position of the last `c` in `s`. */
  function LastIndexOf(s: string, c: char): (r: Option<nat>)
    ensures r.None? <==> forall k :: 0 <= k < |s| ==> s[k] != c
    ensures r.Some? ==> r.value < |s| && s[r.value] == c
    ensures r.Some? ==> forall k :: r.value < k < |s| ==> s[k] != c
  {
    if s == [] then None
    else if s[|s| - 1] == c then Some(|s| - 1)
    else LastIndexOf(s[..|s| - 1], c)
  }

  /** The pattern test: no character class admits `@`, and the top-level label holds
      no dot, so the only possible cut is at the first `@` and the last dot. */
  function IsWellFormed(s: string): (r: bool)
    ensures r <==> MatchesPattern(s)
  {
    var at := FindFirst(s, IsAt());
    var dot := LastIndexOf(s, '.');
    var r := at.Some? && dot.Some? && ShapeAt(s, at.value, dot.value);
    if r then r
    else
      assert !MatchesPattern(s) by {
        forall i: nat, j: nat | ShapeAt(s, i, j)
          ensures false
        {
          OnlyCut(s, i, j);
        }
      }
      r
  }

  /** A match has its `@` at the first `@` and its dot at the last dot. */
  lemma OnlyCut(s: string, at: nat, dot: nat)
    requires ShapeAt(s, at, dot)
    ensures FindFirst(s, IsAt()) == Some(at) && LastIndexOf(s, '.') == Some(dot)
  {
    forall k | 0 <= k < at
      ensures !IsAt()(s[k])
    {
      assert s[..at][k] == s[k];
    }
    forall k | dot < k < |s|
      ensures s[k] != '.'
    {
      assert s[dot + 1..][k - dot - 1] == s[k];
    }
  }

  // ---------------------------------------------------------------------------
  // Validators
  // ---------------------------------------------------------------------------

  const EmailRequired := "Email is required"
  const EmailInvalid := "Please enter a valid email address"
  const EmailNotEducational := "Please use an educational email address (.edu)"
  const PasswordRequired := "Password is required"
  const PasswordTooShort := "Password must be at least 8 characters long"

  /** validateEmail (lines 73-85): the first failing check names the message. */
  function ValidateEmail(email: string): (r: string)
    ensures email == "" ==> r == EmailRequired
    ensures email != "" && !MatchesPattern(email) ==> r == EmailInvalid
    ensures email != "" && MatchesPattern(email) && !EndsWith(Lower(email), ".edu") ==> r == EmailNotEducational
    ensures r == "" <==> email != "" && MatchesPattern(email) && EndsWith(Lower(email), ".edu")
  {
    if email == "" then EmailRequired
    else if !IsWellFormed(email) then EmailInvalid
    else if !EndsWith(Lower(email), ".edu") then EmailNotEducational
    else ""
  }

  /** validatePassword (lines 87-95). */
  function ValidatePassword(password: string): (r: string)
    ensures password == "" ==> r == PasswordRequired
    ensures 0 < |password| < 8 ==> r == PasswordTooShort
    ensures r == "" <==> |password| >= 8
  {
    if password == "" then PasswordRequired
    else if |password| < 8 then PasswordTooShort
    else ""
  }

  /** An address `local@domain.edu` built from the allowed characters passes every
      check, whatever the letter case of its `edu`. */
  lemma EducationalAddressIsValid(local: string, domain: string, tld: string)
    requires |local| > 0 && All(local, IsLocalChar)
    requires |domain| > 0 && All(domain, IsDomainChar)
    requires Lower(tld) == "edu"
    ensures ValidateEmail(local + "@" + domain + "." + tld) == ""
  {
    var s := local + "@" + domain + "." + tld;
    var prefix := local + "@" + domain;
    var suffix := "." + tld;
    assert s == prefix + suffix;
    EduIsLetters(tld);
    PartsShape(local, domain, tld);
    assert MatchesPattern(s);
    LowerAppend(".", tld);
    assert Lower(".") == ".";
    assert Lower(suffix) == ".edu" by {
      assert Lower(suffix) == "." + "edu";
    }
    LowerAppend(prefix, suffix);
    var lowered := Lower(prefix + suffix);
    assert lowered[|lowered| - 4..] == Lower(suffix);
    assert EndsWith(Lower(s), ".edu");
  }

  /** Text that lower-cases to `edu` is three letters. */
  lemma EduIsLetters(tld: string)
    requires Lower(tld) == "edu"
    ensures |tld| == 3 && All(tld, IsLetter)
  {
    forall i | 0 <= i < |tld|
      ensures IsLetter(tld[i])
    {
      assert ToLower(tld[i]) == "edu"[i];
    }
  }

  lemma PartsShape(local: string, domain: string, tld: string)
    requires |local| > 0 && All(local, IsLocalChar)
    requires |domain| > 0 && All(domain, IsDomainChar)
    requires 2 <= |tld| <= 6 && All(tld, IsLetter)
    ensures ShapeAt(local + "@" + domain + "." + tld, |local|, |local| + 1 + |domain|)
  {
    var s := local + "@" + domain + "." + tld;
    var at := |local|;
    var dot := |local| + 1 + |domain|;
    assert s[..at] == local;
    assert s[at + 1..dot] == domain;
    assert s[dot + 1..] == tld;
  }

  // ---------------------------------------------------------------------------
  // handleSubmit
  // ---------------------------------------------------------------------------

  /** An entry of faculty-admin.json. */
  datatype FacultyAdmin = FacultyAdmin(id: string, name: string, email: string, password: string,
                                       role: string, permissions: seq<string>)

  /** The record stored as `facultyAdmin`. */
  datatype Session = Session(id: string, name: string, email: string, role: string, permissions: seq<string>)

  datatype Route = SuperAdminDashboard | FacultyAdminDashboard

  datatype LoginResult =
    | FieldErrors(emailError: string, passwordError: string)
    | Rejected(general: string)
    | LoggedIn(session: Session, route: Route)

  const InvalidCredentials := "Invalid credentials. Please check your email and password."

  function Matching(email: string, password: string): FacultyAdmin -> bool {
    (a: FacultyAdmin) => a.email == email && a.password == password
  }

  /** Where an admin lands: only `faculty_super_admin` reaches the super-admin dashboard. */
  function RouteFor(role: string): (r: Route)
    ensures r == SuperAdminDashboard <==> role == "faculty_super_admin"
  {
    if role == "faculty_super_admin" then SuperAdminDashboard else FacultyAdminDashboard
  }

  /** handleSubmit (lines 118-169): both validators first, then the first admin with
      this email and password. */
  function HandleSubmit(email: string, password: string, admins: seq<FacultyAdmin>): (r: LoginResult)
    ensures r.FieldErrors? <==> ValidateEmail(email) != "" || ValidatePassword(password) != ""
    ensures r.FieldErrors? ==> r == FieldErrors(ValidateEmail(email), ValidatePassword(password))
    ensures r.Rejected? <==> !r.FieldErrors? && forall i :: 0 <= i < |admins| ==> !Matching(email, password)(admins[i])
    ensures r.Rejected? ==> r.general == InvalidCredentials
    ensures r.LoggedIn? ==> exists i :: 0 <= i < |admins| && admins[i].email == email && admins[i].password == password
                                     && r.session == Session(admins[i].id, admins[i].name, admins[i].email, admins[i].role, admins[i].permissions)
                                     && r.route == RouteFor(admins[i].role)
  {
    var emailError := ValidateEmail(email);
    var passwordError := ValidatePassword(password);
    if emailError != "" || passwordError != "" then FieldErrors(emailError, passwordError)
    else match FindFirst(admins, Matching(email, password))
      case None => Rejected(InvalidCredentials)
      case Some(i) =>
        var a := admins[i];
        LoggedIn(Session(a.id, a.name, a.email, a.role, a.permissions), RouteFor(a.role))
  }

  /** A form that fails validation never consults the admin list. */
  lemma ValidationPrecedesLookup(email: string, password: string, admins: seq<FacultyAdmin>, others: seq<FacultyAdmin>)
    requires ValidateEmail(email) != "" || ValidatePassword(password) != ""
    ensures HandleSubmit(email, password, admins) == HandleSubmit(email, password, others)
  {
  }

  /** A login reaches the super-admin dashboard exactly when the matched admin is a
      super admin, and that admin is the first with these credentials. */
  lemma SuperAdminRoute(email: string, password: string, admins: seq<FacultyAdmin>)
    requires HandleSubmit(email, password, admins).LoggedIn?
    ensures var i := FindFirst(admins, Matching(email, password)).value;
            var r := HandleSubmit(email, password, admins);
            r.session.id == admins[i].id &&
            (r.route == SuperAdminDashboard <==> admins[i].role == "faculty_super_admin")
  {
  }
}

=== FILE: json.dfy ===
/** The JSON values the routes read from request bodies and data files, with the
    JavaScript operators the code applies to them. Numbers are integers here. */
module Json {
  import opened Wrappers

  datatype Value =
    | Null
    | Bool(b: bool)
    | Num(n: int)
    | Str(s: string)
    | Arr(items: seq<Value>)
    | Obj(fields: map<string, Value>)

  /** A JSON object; a missing key reads as `undefined`. */
  type Object = map<string, Value>

  /** `o[key]`, with `None` for `undefined`. */
  function Get(o: Object, key: string): (r: Option<Value>)
    ensures r.Some? <==> key in o
    ensures r.Some? ==> r.value == o[key]
  {
    if key in o then Some(o[key]) else None
  }

  predicate IsPrimitive(v: Value) {
    !v.Arr? && !v.Obj?
  }

  /** JavaScript truthiness (`!!v`) of a possibly `undefined` value. */
  predicate Truthy(v: Option<Value>) {
    match v
    case None => false
    case Some(Null) => false
    case Some(Bool(b)) => b
    case Some(Num(n)) => n != 0
    case Some(Str(s)) => s != ""
    case Some(Arr(_)) => true
    case Some(Obj(_)) => true
  }

  /** `a === b`. `undefined` equals only itself, primitives compare by value, and
      arrays or objects that come from separate parses are never the same reference. */
  predicate StrictEquals(a: Option<Value>, b: Option<Value>) {
    || (a.None? && b.None?)
    || (a.Some? && b.Some? && IsPrimitive(a.value) && a.value == b.value)
  }

  /** `items.includes(x)`: SameValueZero, which agrees with `===` on these values;
      a parsed JSON array never holds `undefined`. */
  predicate Includes(items: seq<Value>, x: Option<Value>) {
    x.Some? && IsPrimitive(x.value) && x.value in items
  }
}

=== FILE: notifications.dfy ===
/** The notification route: it finds the election by id, picks the voters the
    election's eligibility admits, and hands one email per recipient to the mail
    transport. Reminders go to the eligible voters who have not voted. */
module Notifications {
  import opened Wrappers
  import opened Json
  import opened Seqs

  /** An election's `eligibility` object; `yearOfStudy` may be a list or one value. */
  datatype Eligibility = Eligibility(yearOfStudy: Option<Value>, stream: Option<Value>)

  /** An entry of `active_elections`; `eligibility` is `None` when missing or null, and
      `timeline` is the stored value, `None` when the entry has no such key. */
  datatype Election = Election(id: Option<Value>, eligibility: Option<Eligibility>, timeline: Option<Value>)

  /** An entry of voter.json, as far as the route reads it. */
  datatype Voter = Voter(email: Option<Value>, yearOfStudy: Option<Value>, stream: Option<Value>, hasVoted: Option<Value>)

  /** The request body `{ electionId, type, customMessage }`. */
  datatype Request = Request(electionId: Option<Value>, kind: Option<Value>, customMessage: Option<Value>)

  /** A message handed to the transport: its recipient and subject (the text is left out). */
  datatype Email = Email(to: Option<Value>, subject: string)

  /** The reply status and message, and every email handed to the transport. */
  datatype Outcome = Outcome(status: nat, message: string, attempted: seq<Email>)

  const SuccessMessage := "Notifications sent successfully"
  const FailureMessage := "Failed to send notifications"

  // ---------------------------------------------------------------------------
  // Audiences
  // ---------------------------------------------------------------------------

  /** The year test of lines 46-48: membership in a list, otherwise `===`. */
  predicate YearMatches(elig: Eligibility, voter: Voter) {
    match elig.yearOfStudy
    case Some(Arr(years)) => Includes(years, voter.yearOfStudy)
    case _ => StrictEquals(voter.yearOfStudy, elig.yearOfStudy)
  }

  /** The stream test of lines 50-51: a falsy stream admits every stream. */
  predicate StreamMatches(elig: Eligibility, voter: Voter) {
    !Truthy(elig.stream) || StrictEquals(voter.stream, elig.stream)
  }

  /** The results filter (lines 67-76). */
  function InAudience(elig: Eligibility): Voter -> bool {
    (v: Voter) => YearMatches(elig, v) && StreamMatches(elig, v)
  }

  /** `!voter.hasVoted`. */
  function NotVoted(): Voter -> bool {
    (v: Voter) => !Truthy(v.hasVoted)
  }

  /** The reminder filter (lines 45-54). */
  function NeedsReminder(elig: Eligibility): Voter -> bool {
    (v: Voter) => YearMatches(elig, v) && StreamMatches(elig, v) && !Truthy(v.hasVoted)
  }

  /** The reminder audience is the results audience less those who have voted, in the
      same order. */
  lemma RemindersAreTheAudienceNotVoted(elig: Eligibility, voters: seq<Voter>)
    ensures Filter(voters, NeedsReminder(elig)) == Filter(Filter(voters, InAudience(elig)), NotVoted())
  {
    FilterConjunction(voters, InAudience(elig), NotVoted(), NeedsReminder(elig));
  }

  /** `recipients.map(voter => sendEmail(voter.email, subject, …))`. */
  function Mails(recipients: seq<Voter>, subject: string): (r: seq<Email>)
    ensures |r| == |recipients|
    ensures forall i :: 0 <= i < |r| ==> r[i] == Email(recipients[i].email, subject)
  {
    if recipients == [] then [] else [Email(recipients[0].email, subject)] + Mails(recipients[1..], subject)
  }

  /** Mails one email to each voter `keep` admits, and `Promise.all` waits for all of
      them. Without an eligibility object the filter throws on its first voter. */
  function Deliver(election: Election, voters: seq<Voter>, keep: Eligibility -> Voter -> bool,
                   subject: string, sendSucceeds: bool): (r: Outcome)
    ensures election.eligibility.None? && |voters| > 0 ==> r == Outcome(500, FailureMessage, [])
    ensures election.eligibility.Some? ==>
              && r.attempted == Mails(Filter(voters, keep(election.eligibility.value)), subject)
              && (r.status == 200 <==> sendSucceeds || r.attempted == [])
    ensures r.status == 200 ==> r.message == SuccessMessage
    ensures r.status != 200 ==> r == Outcome(500, FailureMessage, r.attempted)
  {
    if election.eligibility.None? then
      if |voters| > 0 then Outcome(500, FailureMessage, []) else Outcome(200, SuccessMessage, [])
    else
      var emails := Mails(Filter(voters, keep(election.eligibility.value)), subject);
      if sendSucceeds || emails == [] then Outcome(200, SuccessMessage, emails)
      else Outcome(500, FailureMessage, emails)
  }

  /** `generateReminderEmail` (lines 92-113) reads `election.timeline.startDate`, which
      throws exactly when `timeline` is undefined or null; any other value yields an
      "Invalid Date" text at worst. */
  predicate TimelineReadable(election: Election) {
    election.timeline.Some? && election.timeline.value != Null
  }

  /** The reminder branch (lines 43-60): the filter runs first, then the text of each
      email is generated before its send, so a missing timeline throws on the first
      recipient and nothing is sent. */
  function Remind(election: Election, voters: seq<Voter>, sendSucceeds: bool): (r: Outcome)
    ensures && election.eligibility.Some? && !TimelineReadable(election)
            && Filter(voters, NeedsReminder(election.eligibility.value)) != [] ==>
              r == Outcome(500, FailureMessage, [])
    ensures TimelineReadable(election) || election.eligibility.None? || Filter(voters, NeedsReminder(election.eligibility.value)) == [] ==>
              r == Deliver(election, voters, NeedsReminder, "Election Reminder", sendSucceeds)
    ensures r.status == 200 && r.attempted != [] ==> TimelineReadable(election) && sendSucceeds
    ensures r.status == 200 ==> r.message == SuccessMessage
    ensures r.status != 200 ==> r == Outcome(500, FailureMessage, r.attempted)
  {
    if && election.eligibility.Some? && !TimelineReadable(election)
       && Filter(voters, NeedsReminder(election.eligibility.value)) != [] then
      Outcome(500, FailureMessage, [])
    else
      Deliver(election, voters, NeedsReminder, "Election Reminder", sendSucceeds)
  }

  /** `e => e.id === electionId`. */
  function HasId(id: Option<Value>): Election -> bool {
    (e: Election) => StrictEquals(e.id, id)
  }

  function TypeIs(req: Request, kind: string): bool {
    StrictEquals(req.kind, Some(Str(kind)))
  }

  // ---------------------------------------------------------------------------
  // The route
  // ---------------------------------------------------------------------------

  /** `POST` (lines 21-90) as written: the `results` branch calls `calculateResults`,
      which the file neither defines nor imports, so that branch always throws and
      answers 500 before any email is made. */
  function SendAsWritten(filesRead: bool, elections: seq<Election>, voters: seq<Voter>,
                         req: Request, sendSucceeds: bool): (r: Outcome)
    ensures !filesRead ==> r == Outcome(500, FailureMessage, [])
    ensures filesRead && FindFirst(elections, HasId(req.electionId)).None? ==> r == Outcome(404, "Election not found", [])
    ensures filesRead && FindFirst(elections, HasId(req.electionId)).Some? && TypeIs(req, "results") ==>
              r == Outcome(500, FailureMessage, [])
    ensures filesRead && FindFirst(elections, HasId(req.electionId)).Some? && TypeIs(req, "reminder") ==>
              r == Remind(elections[FindFirst(elections, HasId(req.electionId)).value], voters, sendSucceeds)
  {
    if !filesRead then Outcome(500, FailureMessage, [])
    else match FindFirst(elections, HasId(req.electionId))
      case None => Outcome(404, "Election not found", [])
      case Some(i) =>
        if TypeIs(req, "reminder") then Remind(elections[i], voters, sendSucceeds)
        else if TypeIs(req, "results") then Outcome(500, FailureMessage, [])
        else Outcome(200, SuccessMessage, [])
  }

  /** The route with the results branch doing what its comment says: one
      'Election Results' email to each voter of the election's audience. */
  function Send(filesRead: bool, elections: seq<Election>, voters: seq<Voter>,
                req: Request, sendSucceeds: bool): (r: Outcome)
    ensures !filesRead ==> r == Outcome(500, FailureMessage, [])
    ensures filesRead && FindFirst(elections, HasId(req.electionId)).None? ==> r == Outcome(404, "Election not found", [])
    ensures filesRead && FindFirst(elections, HasId(req.electionId)).Some? ==>
              var election := elections[FindFirst(elections, HasId(req.electionId)).value];
              && StrictEquals(election.id, req.electionId)
              && (TypeIs(req, "reminder") ==> r == Remind(election, voters, sendSucceeds))
              && (TypeIs(req, "results") ==> r == Deliver(election, voters, InAudience, "Election Results", sendSucceeds))
              && (!TypeIs(req, "reminder") && !TypeIs(req, "results") ==> r == Outcome(200, SuccessMessage, []))
  {
    if !filesRead then Outcome(500, FailureMessage, [])
    else match FindFirst(elections, HasId(req.electionId))
      case None => Outcome(404, "Election not found", [])
      case Some(i) =>
        if TypeIs(req, "reminder") then Remind(elections[i], voters, sendSucceeds)
        else if TypeIs(req, "results") then Deliver(elections[i], voters, InAudience, "Election Results", sendSucceeds)
        else Outcome(200, SuccessMessage, [])
  }

  /** The two versions differ only in the results branch. */
  lemma SendDiffersOnlyOnResults(filesRead: bool, elections: seq<Election>, voters: seq<Voter>,
                                 req: Request, sendSucceeds: bool)
    requires !TypeIs(req, "results")
    ensures SendAsWritten(filesRead, elections, voters, req, sendSucceeds) == Send(filesRead, elections, voters, req, sendSucceeds)
  {
  }

  /** The counterexample: a results request for a known election, with an eligible
      voter and a working transport, answers 500 and mails nobody as written, while
      the intended route mails that voter. */
  lemma ResultsBranchAlwaysFails()
    ensures var elig := Eligibility(Some(Num(3)), None);
            var elections := [Election(Some(Str("e1")), Some(elig), None)];
            var voter := Voter(Some(Str("a@college.edu")), Some(Num(3)), Some(Str("CS")), Some(Bool(true)));
            var req := Request(Some(Str("e1")), Some(Str("results")), None);
            && SendAsWritten(true, elections, [voter], req, true) == Outcome(500, FailureMessage, [])
            && Send(true, elections, [voter], req, true) == Outcome(200, SuccessMessage, [Email(voter.email, "Election Results")])
  {
    var elig := Eligibility(Some(Num(3)), None);
    var voter := Voter(Some(Str("a@college.edu")), Some(Num(3)), Some(Str("CS")), Some(Bool(true)));
    assert InAudience(elig)(voter);
    assert Filter([voter], InAudience(elig)) == [voter];
  }

  /** A reminder for an election stored without a timeline, with one eligible voter
      who has not voted and a working transport, answers 500 and mails nobody. */
  lemma ReminderWithoutTimelineFails()
    ensures var elig := Eligibility(Some(Num(3)), None);
            var elections := [Election(Some(Str("e1")), Some(elig), None)];
            var voter := Voter(Some(Str("a@college.edu")), Some(Num(3)), None, None);
            var req := Request(Some(Str("e1")), Some(Str("reminder")), None);
            && SendAsWritten(true, elections, [voter], req, true) == Outcome(500, FailureMessage, [])
            && Send(true, elections, [voter], req, true) == Outcome(500, FailureMessage, [])
  {
  }

  /** Every email goes to an admitted voter, and each admitted voter is mailed once
      per entry in voter.json; no voter who has voted is reminded. */
  lemma RecipientsAreTheAudience(elig: Eligibility, voters: seq<Voter>, v: Voter, subject: string)
    ensures multiset(Filter(voters, InAudience(elig)))[v] == if InAudience(elig)(v) then multiset(voters)[v] else 0
    ensures v in Filter(voters, NeedsReminder(elig)) <==> v in voters && InAudience(elig)(v) && !Truthy(v.hasVoted)
    ensures |Mails(Filter(voters, NeedsReminder(elig)), subject)| <= |Filter(voters, InAudience(elig))|
  {
    FilterCounts(voters, InAudience(elig));
    FilterCounts(voters, NeedsReminder(elig));
    RemindersAreTheAudienceNotVoted(elig, voters);
  }
}

=== FILE: results_ranking.dfy ===
/** The results dashboard's ranking rules: the arg-max winner with first-wins ties,
    the descending (stable) sort of a position's candidates with their trend against
    the previous snapshot, and the guards of the margin and percentage helpers.
    Candidates come in `Object.entries` order. */
module ResultsRanking {
  import opened Wrappers
  import opened Seqs

  /** One candidate of a position's results. */
  datatype CandidateResult = CandidateResult(id: string, votes: nat, name: string)

  /** A row of `sortedCandidates`: the candidate's data and its trend. */
  datatype Ranked = Ranked(id: string, votes: nat, name: string, trend: int)

  // ---------------------------------------------------------------------------
  // getWinningCandidate
  // ---------------------------------------------------------------------------

  /** The position of the winner in the reduce of lines 73-80: a later entry replaces
      the current winner only with strictly more votes. */
  function WinnerIndex(cands: seq<CandidateResult>): (r: Option<nat>)
    ensures r.None? <==> |cands| == 0
    ensures r.Some? ==> r.value < |cands|
    ensures r.Some? ==> forall j :: 0 <= j < |cands| ==> cands[j].votes <= cands[r.value].votes
    ensures r.Some? ==> forall j :: 0 <= j < r.value ==> cands[j].votes < cands[r.value].votes
    decreases |cands|
  {
    if |cands| == 0 then None
    else
      var last := |cands| - 1;
      var w := WinnerIndex(cands[..last]);
      if w.None? || cands[last].votes > cands[w.value].votes then Some(last) else w
  }

  /** getWinningCandidate (lines 73-80): `null` for no candidates, otherwise the
      earliest candidate with the most votes. */
  function GetWinningCandidate(cands: seq<CandidateResult>): (r: Option<CandidateResult>)
    ensures r.None? <==> |cands| == 0
    ensures r.Some? ==> exists i :: && 0 <= i < |cands| && cands[i] == r.value
                                   && (forall j :: 0 <= j < |cands| ==> cands[j].votes <= cands[i].votes)
                                   && (forall j :: 0 <= j < i ==> cands[j].votes < cands[i].votes)
  {
    match WinnerIndex(cands)
    case None => None
    case Some(i) => Some(cands[i])
  }

  // ---------------------------------------------------------------------------
  // sortedCandidates
  // ---------------------------------------------------------------------------

  /** Non-increasing by votes. */
  predicate Descending(s: seq<Ranked>) {
    forall i, j :: 0 <= i < j < |s| ==> s[i].votes >= s[j].votes
  }

  /** Places `x` before the first row with at most its votes. Rows with as many votes
      as `x` come later in the original order, so they stay after it. */
  function Insert(x: Ranked, sorted: seq<Ranked>): (r: seq<Ranked>)
    ensures multiset(r) == multiset{x} + multiset(sorted)
    ensures |r| == |sorted| + 1
    ensures r[0] == x || (|sorted| > 0 && r[0] == sorted[0])
  {
    if sorted == [] then [x]
    else if sorted[0].votes <= x.votes then [x] + sorted
    else
      assert sorted == [sorted[0]] + sorted[1..];
      [sorted[0]] + Insert(x, sorted[1..])
  }

  /** Inserting into a ranking gives a ranking. */
  lemma {:induction false} InsertDescending(x: Ranked, sorted: seq<Ranked>)
    requires Descending(sorted)
    ensures Descending(Insert(x, sorted))
  {
    if sorted != [] && sorted[0].votes > x.votes {
      InsertDescending(x, sorted[1..]);
      var rest := Insert(x, sorted[1..]);
      assert Insert(x, sorted) == [sorted[0]] + rest;
      assert rest[0].votes <= sorted[0].votes;
    }
  }

  /** `.sort((a, b) => b.votes - a.votes)`; the sort is stable, as the language
      requires of `Array.prototype.sort`. */
  function SortByVotes(s: seq<Ranked>): (r: seq<Ranked>)
    ensures Descending(r)
    ensures multiset(r) == multiset(s)
    ensures |r| == |s|
  {
    if s == [] then []
    else
      assert s == [s[0]] + s[1..];
      var rest := SortByVotes(s[1..]);
      InsertDescending(s[0], rest);
      Insert(s[0], rest)
  }

  function HasVotes(v: nat): Ranked -> bool {
    (x: Ranked) => x.votes == v
  }

  /** Filtering a single row keeps it or drops it. */
  lemma FilterSingle(y: Ranked, v: nat)
    ensures Filter([y], HasVotes(v)) == if y.votes == v then [y] else []
  {
    assert [y][1..] == [];
  }

  lemma {:induction false} InsertKeepsTies(x: Ranked, sorted: seq<Ranked>, v: nat)
    ensures Filter(Insert(x, sorted), HasVotes(v)) == Filter([x], HasVotes(v)) + Filter(sorted, HasVotes(v))
  {
    if sorted == [] {
    } else if sorted[0].votes <= x.votes {
      FilterAppend([x], sorted, HasVotes(v));
    } else {
      var rest := sorted[1..];
      assert sorted == [sorted[0]] + rest;
      assert Insert(x, sorted) == [sorted[0]] + Insert(x, rest);
      InsertKeepsTies(x, rest, v);
      PassHigher(x, sorted[0], Insert(x, rest), rest, v);
    }
  }

  /** Moving `x` past a row with more votes keeps the order of each vote count: at most
      one of the two is kept. */
  lemma PassHigher(x: Ranked, head: Ranked, inserted: seq<Ranked>, rest: seq<Ranked>, v: nat)
    requires x.votes < head.votes
    requires Filter(inserted, HasVotes(v)) == Filter([x], HasVotes(v)) + Filter(rest, HasVotes(v))
    ensures Filter([head] + inserted, HasVotes(v)) == Filter([x], HasVotes(v)) + Filter([head] + rest, HasVotes(v))
  {
    var keep := HasVotes(v);
    FilterAppend([head], inserted, keep);
    FilterAppend([head], rest, keep);
    FilterSingle(x, v);
    FilterSingle(head, v);
    var fh, fx, fr := Filter([head], keep), Filter([x], keep), Filter(rest, keep);
    if fx == [] {
      assert fx + fr == fr;
      assert fx + (fh + fr) == fh + fr;
    } else {
      assert fh == [];
      assert fh + (fx + fr) == fx + fr;
      assert fh + fr == fr;
    }
  }

  /** The sort is stable: the candidates with any given number of votes appear in the
      same relative order as in the input. */
  lemma {:induction false} SortKeepsTies(s: seq<Ranked>, v: nat)
    ensures Filter(SortByVotes(s), HasVotes(v)) == Filter(s, HasVotes(v))
  {
    if s != [] {
      SortKeepsTies(s[1..], v);
      InsertKeepsTies(s[0], SortByVotes(s[1..]), v);
      FilterAppend([s[0]], s[1..], HasVotes(v));
      assert s == [s[0]] + s[1..];
    }
  }

  /** The row for each candidate: its trend is the change against the previous
      snapshot, or 0 when there is none (lines 190-195). `None` stands for the
      exception raised when a previous snapshot lacks one of the candidates. */
  function WithTrends(cands: seq<CandidateResult>, previous: Option<map<string, nat>>): (r: Option<seq<Ranked>>)
    ensures previous.None? ==> r.Some?
    ensures previous.Some? ==> (r.Some? <==> forall i :: 0 <= i < |cands| ==> cands[i].id in previous.value)
    ensures r.Some? ==> |r.value| == |cands|
    ensures r.Some? ==> forall i :: 0 <= i < |cands| ==>
              && r.value[i].id == cands[i].id && r.value[i].votes == cands[i].votes && r.value[i].name == cands[i].name
              && r.value[i].trend == (if previous.None? then 0 else cands[i].votes - previous.value[cands[i].id])
  {
    if cands == [] then Some([])
    else
      var c := cands[0];
      if previous.Some? && c.id !in previous.value then None
      else
        var trend := if previous.None? then 0 else c.votes - previous.value[c.id];
        match WithTrends(cands[1..], previous)
        case None => None
        case Some(rest) => Some([Ranked(c.id, c.votes, c.name, trend)] + rest)
  }

  /** A row without its trend: the candidate it was made from. */
  function Untrended(rows: seq<Ranked>): (r: seq<CandidateResult>)
    ensures |r| == |rows|
  {
    if rows == [] then [] else [CandidateResult(rows[0].id, rows[0].votes, rows[0].name)] + Untrended(rows[1..])
  }

  /** The trend rows carry the candidates unchanged: dropping the trends gives the
      candidate list back, whatever the snapshot. */
  lemma {:induction false} TrendsKeepCandidates(cands: seq<CandidateResult>, previous: Option<map<string, nat>>)
    requires WithTrends(cands, previous).Some?
    ensures Untrended(WithTrends(cands, previous).value) == cands
  {
    if cands != [] {
      TrendsKeepCandidates(cands[1..], previous);
    }
  }

  /** Against a snapshot that records every candidate's current votes, no candidate
      has moved: the rows exist and every trend is 0, as without a snapshot. */
  lemma TrendsAgainstCurrentVotes(cands: seq<CandidateResult>, previous: map<string, nat>)
    requires forall i :: 0 <= i < |cands| ==> cands[i].id in previous && previous[cands[i].id] == cands[i].votes
    ensures WithTrends(cands, Some(previous)).Some? && WithTrends(cands, None).Some?
    ensures forall i :: 0 <= i < |cands| ==>
              WithTrends(cands, Some(previous)).value[i].trend == 0 == WithTrends(cands, None).value[i].trend
    ensures WithTrends(cands, Some(previous)) == WithTrends(cands, None)
  {
  }

  /** sortedCandidates (lines 189-196): the rows ordered by votes, most first. */
  function SortedCandidates(cands: seq<CandidateResult>, previous: Option<map<string, nat>>): (r: Option<seq<Ranked>>)
    ensures r.Some? <==> WithTrends(cands, previous).Some?
    ensures r.Some? ==> Descending(r.value) && multiset(r.value) == multiset(WithTrends(cands, previous).value)
  {
    match WithTrends(cands, previous)
    case None => None
    case Some(rows) => Some(SortByVotes(rows))
  }

  /** The first row kept by a filter is the first row that satisfies it. */
  lemma {:induction false} FilterHead<T(!new)>(s: seq<T>, keep: T -> bool, i: nat)
    requires i < |s| && keep(s[i]) && forall j :: 0 <= j < i ==> !keep(s[j])
    ensures |Filter(s, keep)| > 0 && Filter(s, keep)[0] == s[i]
  {
    if i > 0 {
      FilterHead(s[1..], keep, i - 1);
    }
  }

  /** The first row of a ranking has the most votes. */
  lemma SortedHeadVotes(rows: seq<Ranked>, w: nat)
    requires w < |rows| && forall j :: 0 <= j < |rows| ==> rows[j].votes <= rows[w].votes
    ensures SortByVotes(rows)[0].votes == rows[w].votes
  {
    var r := SortByVotes(rows);
    assert multiset(rows)[r[0]] > 0;
    assert r[0] in rows;
    assert multiset(r)[rows[w]] > 0;
    assert rows[w] in r;
  }

  /** The first row of sortedCandidates is the candidate getWinningCandidate picks: the
      earliest one with the most votes. */
  lemma RankingHeadIsWinner(cands: seq<CandidateResult>, previous: Option<map<string, nat>>)
    requires |cands| > 0 && SortedCandidates(cands, previous).Some?
    ensures var head := SortedCandidates(cands, previous).value[0];
            var winner := GetWinningCandidate(cands).value;
            head.id == winner.id && head.votes == winner.votes && head.name == winner.name
  {
    var rows := WithTrends(cands, previous).value;
    var w := WinnerIndex(cands).value;
    var m := rows[w].votes;
    SortedHeadVotes(rows, w);
    var r := SortByVotes(rows);
    FilterHead(r, HasVotes(m), 0);
    FilterHead(rows, HasVotes(m), w);
    SortKeepsTies(rows, m);
  }

  // ---------------------------------------------------------------------------
  // getVoteMargin and calculatePercentage
  // ---------------------------------------------------------------------------

  /** The margin between the first two rows: `NoMargin` is the 0 returned when either
      is missing; otherwise the vote difference and the winner's votes, whose ratio
      the page shows as a percentage. */
  datatype Margin = NoMargin | Lead(difference: int, winnerVotes: nat)

  /** getVoteMargin (lines 82-85) on `sortedCandidates[0]` and `sortedCandidates[1]`. */
  function GetVoteMargin(ranking: seq<Ranked>): (r: Margin)
    ensures r.NoMargin? <==> |ranking| < 2
    ensures r.Lead? ==> r.winnerVotes == ranking[0].votes && r.difference == ranking[0].votes - ranking[1].votes
  {
    if |ranking| < 2 then NoMargin
    else Lead(ranking[0].votes - ranking[1].votes, ranking[0].votes)
  }

  /** On a ranking the leader is never behind the runner-up. */
  lemma MarginNonNegative(rows: seq<Ranked>)
    ensures var m := GetVoteMargin(SortByVotes(rows));
            m.Lead? ==> 0 <= m.difference <= m.winnerVotes
  {
  }

  /** A share of a total: `Zero` for the guarded case, otherwise the two numbers whose
      ratio the page shows. */
  datatype Percentage = Zero | Share(votes: nat, total: nat)

  /** calculatePercentage (lines 98-101): a total of 0 gives 0 instead of a division. */
  function CalculatePercentage(votes: nat, total: nat): (r: Percentage)
    ensures r.Zero? <==> total == 0
    ensures r.Share? ==> r.total > 0 && r.votes == votes && r.total == total
  {
    if total == 0 then Zero else Share(votes, total)
  }
}

=== FILE: send_passkey.dfy ===
/** The passkey route: a six-character passkey drawn from digits and capital letters,
    and the status codes of `POST`. Each random draw `Math.random()` enters as the index
    `Math.floor(r * 36)` it selects. */
module SendPasskey {
  import opened Wrappers
  import opened Json
  import opened Text

  /** The passkey characters: the ten digits, then the capital letters A to Z. */
  function Alphabet(): (a: string)
    ensures |a| == 36 && forall d :: 0 <= d < 36 ==> a[d] == AlphabetChar(d)
  {
    seq(36, d requires 0 <= d < 36 => AlphabetChar(d))
  }

  function AlphabetChar(d: nat): (c: char)
    requires d < 36
    ensures d < 10 ==> IsDigit(c) && c as int == '0' as int + d
    ensures d >= 10 ==> IsUpper(c) && c as int == 'A' as int + d - 10
  {
    if d < 10 then ('0' as int + d) as char else ('A' as int + d - 10) as char
  }

  /** The alphabet is the string `chars` of line 5. */
  lemma AlphabetSpelledOut()
    ensures Alphabet() == "0123456789ABCDEFGHIJKLMNOPQRSTUVWXYZ"
  {
  }
  const PasskeyLength := 6

  /** The place of a passkey character in the alphabet: the inverse of indexing it. */
  function AlphabetIndex(c: char): (d: nat)
    requires IsDigit(c) || IsUpper(c)
    ensures d < |Alphabet()| && Alphabet()[d] == c
  {
    if IsDigit(c) then c as int - '0' as int else c as int - 'A' as int + 10
  }

  /** Every alphabet character is a digit or a capital letter. */
  lemma AlphabetChars(d: nat)
    requires d < |Alphabet()|
    ensures IsDigit(Alphabet()[d]) || IsUpper(Alphabet()[d])
    ensures AlphabetIndex(Alphabet()[d]) == d
  {
  }

  /** generatePasskey (lines 4-11): one alphabet character per draw, six draws. */
  method GeneratePasskey(draws: seq<nat>) returns (passkey: string)
    requires |draws| == PasskeyLength
    requires forall i :: 0 <= i < |draws| ==> draws[i] < |Alphabet()|
    ensures |passkey| == PasskeyLength
    ensures forall i :: 0 <= i < |passkey| ==> passkey[i] == Alphabet()[draws[i]]
    ensures forall i :: 0 <= i < |passkey| ==> IsDigit(passkey[i]) || IsUpper(passkey[i])
    ensures forall i :: 0 <= i < |passkey| ==> AlphabetIndex(passkey[i]) == draws[i]
  {
    passkey := "";
    var i := 0;
    while i < PasskeyLength
      invariant 0 <= i <= PasskeyLength
      invariant |passkey| == i
      invariant forall j :: 0 <= j < i ==> passkey[j] == Alphabet()[draws[j]]
    {
      passkey := passkey + [Alphabet()[draws[i]]];
      i := i + 1;
    }
    forall j | 0 <= j < |passkey|
      ensures IsDigit(passkey[j]) || IsUpper(passkey[j])
      ensures AlphabetIndex(passkey[j]) == draws[j]
    {
      AlphabetChars(draws[j]);
    }
  }

  /** The reply: its status, the `error` field and the `passkey` field. */
  datatype Reply = Reply(status: nat, error: Option<string>, passkey: Option<string>)

  /** `POST` (lines 13-50). `body` is `None` when the request body is not JSON. A falsy
      email answers 400 before any passkey is drawn; the passkey is returned only when
      the email was sent. */
  method Post(body: Option<Object>, draws: seq<nat>, sendSucceeds: bool) returns (r: Reply)
    requires |draws| == PasskeyLength
    requires forall i :: 0 <= i < |draws| ==> draws[i] < |Alphabet()|
    ensures body.None? ==> r == Reply(500, Some("Server error"), None)
    ensures body.Some? && !Truthy(Get(body.value, "email")) ==> r == Reply(400, Some("Email is required"), None)
    ensures body.Some? && Truthy(Get(body.value, "email")) && !sendSucceeds ==>
              r == Reply(500, Some("Email service error"), None)
    ensures r.status == 200 <==> body.Some? && Truthy(Get(body.value, "email")) && sendSucceeds
    ensures r.status == 200 ==>
              && r.error.None? && r.passkey.Some?
              && |r.passkey.value| == PasskeyLength
              && forall i :: 0 <= i < PasskeyLength ==> r.passkey.value[i] == Alphabet()[draws[i]]
    ensures r.passkey.Some? ==> r.status == 200
  {
    if body.None? {
      return Reply(500, Some("Server error"), None);
    }
    if !Truthy(Get(body.value, "email")) {
      return Reply(400, Some("Email is required"), None);
    }
    var passkey := GeneratePasskey(draws);
    if sendSucceeds {
      r := Reply(200, None, Some(passkey));
    } else {
      r := Reply(500, Some("Email service error"), None);
    }
  }
}

=== FILE: seqs.dfy ===
/** Order-preserving filtering of sequences (JavaScript's `Array.prototype.filter`). */
module Seqs {
  import opened Wrappers

  /** The elements of `s` that satisfy `keep`, in their original order. */
  function Filter<T(!new)>(s: seq<T>, keep: T -> bool): (r: seq<T>)
    ensures |r| <= |s|
    ensures forall i :: 0 <= i < |r| ==> keep(r[i])
  {
    if s == [] then []
    else (if keep(s[0]) then [s[0]] else []) + Filter(s[1..], keep)
  }

  /** Filtering keeps every satisfying element as often as it occurs and drops the rest. */
  lemma {:induction false} FilterCounts<T(!new)>(s: seq<T>, keep: T -> bool)
    ensures forall x :: multiset(Filter(s, keep))[x] == if keep(x) then multiset(s)[x] else 0
    ensures forall x :: x in Filter(s, keep) <==> x in s && keep(x)
  {
    if s != [] {
      FilterCounts(s[1..], keep);
      assert s == [s[0]] + s[1..];
    }
  }

  /** Filtering distributes over concatenation, so the relative order of kept elements
      is the order of the input. */
  lemma {:induction false} FilterAppend<T(!new)>(a: seq<T>, b: seq<T>, keep: T -> bool)
    ensures Filter(a + b, keep) == Filter(a, keep) + Filter(b, keep)
  {
    if a == [] {
      assert a + b == b;
    } else {
      assert (a + b)[1..] == a[1..] + b;
      FilterAppend(a[1..], b, keep);
    }
  }

  /** Filtering by a conjunction is filtering twice. */
  lemma {:induction false} FilterConjunction<T(!new)>(s: seq<T>, p: T -> bool, q: T -> bool, both: T -> bool)
    requires forall x :: both(x) == (p(x) && q(x))
    ensures Filter(s, both) == Filter(Filter(s, p), q)
  {
    if s != [] {
      var rest := Filter(s[1..], p);
      FilterConjunction(s[1..], p, q, both);
      if p(s[0]) {
        var kept := [s[0]] + rest;
        assert Filter(s, p) == kept;
        assert kept[1..] == rest;
        assert Filter(kept, q) == (if q(s[0]) then [s[0]] else []) + Filter(rest, q);
      } else {
        assert Filter(s, p) == rest;
      }
    }
  }

  /** A filter that keeps everything is the identity. */
  lemma {:induction false} FilterKeepAll<T(!new)>(s: seq<T>, keep: T -> bool)
    requires forall i :: 0 <= i < |s| ==> keep(s[i])
    ensures Filter(s, keep) == s
  {
    if s != [] {
      FilterKeepAll(s[1..], keep);
      assert s == [s[0]] + s[1..];
    }
  }

  /** The position of the first element satisfying `keep` (`findIndex`, with `None`
      for -1; `find` is the element there). */
  function FindFirst<T(!new)>(s: seq<T>, keep: T -> bool): (r: Option<nat>)
    ensures r.None? <==> forall j :: 0 <= j < |s| ==> !keep(s[j])
    ensures r.Some? ==> r.value < |s| && keep(s[r.value])
    ensures r.Some? ==> forall j :: 0 <= j < r.value ==> !keep(s[j])
  {
    if s == [] then None
    else if keep(s[0]) then Some(0)
    else match FindFirst(s[1..], keep)
      case None => None
      case Some(i) => Some(i + 1)
  }
}

=== FILE: student_admin_login.dfy ===
/** The student-admin login page: the credential match, the one-time password drawn
    and stored before it is mailed, and the single-use OTP check that opens the
    session. The stored OTP stands for the `currentOTP` entry of local storage. */
module StudentAdminLogin {
  import opened Wrappers
  import opened Seqs
  import opened Decimal

  // ---------------------------------------------------------------------------
  // generateOTP
  // ---------------------------------------------------------------------------

  /** generateOTP (lines 38-40). The draw is `Math.floor(r * 900000)` for the random
      `r`; adding the whole number 100000 before the floor does not change it. */
  function GenerateOTP(draw: nat): (otp: string)
    requires draw < 900000
    ensures |otp| == 6 && AllDigits(otp) && otp[0] != '0'
    ensures DigitsValue(otp) == 100000 + draw
    ensures 100000 <= DigitsValue(otp) <= 999999
  {
    assert Pow10(5) == 100000 && Pow10(6) == 1000000;
    NatToStringLength(100000 + draw, 6);
    NatToString(100000 + draw)
  }

  /** Distinct draws give distinct passwords, and the password reads back as its value. */
  lemma OTPDeterminesDraw(a: nat, b: nat)
    requires a < 900000 && b < 900000
    ensures GenerateOTP(a) == GenerateOTP(b) <==> a == b
    ensures ParseInt(GenerateOTP(a)) == Some(100000 + a)
  {
    ParseIntRoundTrip(100000 + a);
  }

  // ---------------------------------------------------------------------------
  // The two steps
  // ---------------------------------------------------------------------------

  /** An entry of student-admin.json. */
  datatype StudentAdmin = StudentAdmin(id: string, name: string, email: string, password: string,
                                       role: string, permissions: seq<string>, department: string)

  /** The record stored as `studentAdmin`. */
  datatype Session = Session(id: string, name: string, email: string, role: string,
                             permissions: seq<string>, department: string)

  /** The reply of the OTP mail route: `response.ok` and the `error` field. */
  datatype OtpReply = OtpReply(ok: bool, error: Option<string>)

  datatype LoginState = LoginState(email: string, password: string, otp: string, showOTP: bool,
                                   storedOTP: Option<string>, validatedAdmin: Option<StudentAdmin>,
                                   error: string, otpError: string, session: Option<Session>)

  const InvalidCredentials := "Invalid email or password"
  const InvalidOTP := "Invalid OTP"
  /** The message of the TypeError raised by reading a field of the `null` admin. */
  const NoAdminError := "Cannot read properties of null (reading 'id')"

  function Matching(email: string, password: string): StudentAdmin -> bool {
    (a: StudentAdmin) => a.email == email && a.password == password
  }

  /** The message sendOTP raises (lines 60-67): `data.error || 'Failed to send OTP'`,
      prefixed. */
  function SendFailure(reply: OtpReply): string {
    "Failed to send OTP: " + if reply.error.Some? && reply.error.value != "" then reply.error.value else "Failed to send OTP"
  }

  /** handleSubmit (lines 71-93) with sendOTP (lines 42-69): the first admin with these
      credentials is remembered and a fresh OTP is stored before it is sent; the OTP
      step opens only when the send succeeds. */
  function HandleSubmit(st: LoginState, admins: seq<StudentAdmin>, draw: nat, reply: OtpReply): (r: LoginState)
    requires draw < 900000
    ensures FindFirst(admins, Matching(st.email, st.password)).None? ==> r == st.(error := InvalidCredentials)
    ensures FindFirst(admins, Matching(st.email, st.password)).Some? ==>
              var a := admins[FindFirst(admins, Matching(st.email, st.password)).value];
              && a.email == st.email && a.password == st.password
              && r.validatedAdmin == Some(a)
              && r.storedOTP == Some(GenerateOTP(draw))
              && (reply.ok ==> r.showOTP && r.error == "")
              && (!reply.ok ==> r.showOTP == st.showOTP && r.error == SendFailure(reply))
    ensures r.session == st.session && r.otp == st.otp && r.otpError == st.otpError
    ensures r.showOTP && !st.showOTP ==> reply.ok
  {
    match FindFirst(admins, Matching(st.email, st.password))
    case None => st.(error := InvalidCredentials)
    case Some(i) =>
      var stored := st.(validatedAdmin := Some(admins[i]), storedOTP := Some(GenerateOTP(draw)));
      if reply.ok then stored.(showOTP := true, error := "")
      else stored.(error := SendFailure(reply))
  }

  function SessionOf(a: StudentAdmin): Session {
    Session(a.id, a.name, a.email, a.role, a.permissions, a.department)
  }

  /** handleOTPSubmit (lines 95-124): a wrong OTP keeps the stored one; a right one is
      removed before the session is written from the remembered admin. */
  function HandleOTPSubmit(st: LoginState): (r: LoginState)
    ensures st.storedOTP != Some(st.otp) ==> r == st.(otpError := InvalidOTP)
    ensures st.storedOTP == Some(st.otp) ==> r.storedOTP.None?
    ensures st.storedOTP == Some(st.otp) && st.validatedAdmin.Some? ==>
              r == st.(storedOTP := None, session := Some(SessionOf(st.validatedAdmin.value)), otpError := "")
    ensures st.storedOTP == Some(st.otp) && st.validatedAdmin.None? ==>
              r == st.(storedOTP := None, otpError := NoAdminError)
    ensures r.otpError == "" <==> st.storedOTP == Some(st.otp) && st.validatedAdmin.Some?
  {
    if st.storedOTP != Some(st.otp) then st.(otpError := InvalidOTP)
    else
      var cleared := st.(storedOTP := None);
      match st.validatedAdmin
      case None => cleared.(otpError := NoAdminError)
      case Some(a) => cleared.(session := Some(SessionOf(a)), otpError := "")
  }

  /** An OTP opens at most one session: submitting it again is refused. */
  lemma OTPSingleUse(st: LoginState)
    requires HandleOTPSubmit(st).otpError == ""
    ensures HandleOTPSubmit(HandleOTPSubmit(st)).otpError == InvalidOTP
  {
  }

  /** The whole login: matching credentials, a delivered OTP, and that OTP typed back
      open the session of the first matching admin, with the OTP consumed. */
  lemma LoginWithDeliveredOTP(st: LoginState, admins: seq<StudentAdmin>, draw: nat, reply: OtpReply)
    requires draw < 900000 && reply.ok
    requires FindFirst(admins, Matching(st.email, st.password)).Some?
    ensures var first := HandleSubmit(st, admins, draw, reply);
            var after := HandleOTPSubmit(first.(otp := GenerateOTP(draw)));
            var a := admins[FindFirst(admins, Matching(st.email, st.password)).value];
            && first.showOTP
            && after.session == Some(SessionOf(a)) && after.otpError == "" && after.storedOTP.None?
  {
  }

  /** Any other typed OTP is refused and leaves the stored one in place. */
  lemma WrongOTPKeepsStored(st: LoginState, admins: seq<StudentAdmin>, draw: nat, reply: OtpReply, typed: string)
    requires draw < 900000
    requires FindFirst(admins, Matching(st.email, st.password)).Some?
    requires typed != GenerateOTP(draw)
    ensures var first := HandleSubmit(st, admins, draw, reply);
            var after := HandleOTPSubmit(first.(otp := typed));
            after.otpError == InvalidOTP && after.storedOTP == Some(GenerateOTP(draw)) && after.session == st.session
  {
  }
}

=== FILE: super_admin.dfy ===
/** The super-admin dashboard: the role check that admits only a faculty super admin,
    adding a student admin from the form, and revoking admins by id. Admin entries are
    JSON objects, since the list mixes entries of student-admin.json with added ones. */
module SuperAdmin {
  import opened Wrappers
  import opened Json
  import opened Seqs
  import opened Decimal
  import FacultyLogin
  import ElectionForm

  // ---------------------------------------------------------------------------
  // The role check
  // ---------------------------------------------------------------------------

  datatype Access = Admit(admin: Object) | RedirectToLogin

  /** The effect of lines 21-41 on the stored `facultyAdmin` record, `None` when nothing
      is stored: only the role `faculty_super_admin` is let in. */
  function CheckAccess(stored: Option<Object>): (r: Access)
    ensures r.Admit? <==> stored.Some? && Get(stored.value, "role") == Some(Str("faculty_super_admin"))
    ensures r.Admit? ==> r.admin == stored.value
  {
    match stored
    case None => RedirectToLogin
    case Some(admin) =>
      if !StrictEquals(Get(admin, "role"), Some(Str("faculty_super_admin"))) then RedirectToLogin
      else Admit(admin)
  }

  function StrArr(items: seq<string>): (r: seq<Value>)
    ensures |r| == |items| && forall i :: 0 <= i < |items| ==> r[i] == Str(items[i])
  {
    if items == [] then [] else [Str(items[0])] + StrArr(items[1..])
  }

  /** The `facultyAdmin` record the faculty login stores. */
  function Stored(s: FacultyLogin.Session): Object {
    map["id" := Str(s.id), "name" := Str(s.name), "email" := Str(s.email),
        "role" := Str(s.role), "permissions" := Arr(StrArr(s.permissions))]
  }

  /** The faculty login sends an admin to this dashboard exactly when the dashboard
      lets that admin in. */
  lemma LoginRouteAgreesWithAccess(email: string, password: string, admins: seq<FacultyLogin.FacultyAdmin>)
    requires FacultyLogin.HandleSubmit(email, password, admins).LoggedIn?
    ensures var r := FacultyLogin.HandleSubmit(email, password, admins);
            (r.route == FacultyLogin.SuperAdminDashboard) <==> CheckAccess(Some(Stored(r.session))).Admit?
  {
    var r := FacultyLogin.HandleSubmit(email, password, admins);
    assert Get(Stored(r.session), "role") == Some(Str(r.session.role));
  }

  // ---------------------------------------------------------------------------
  // handleAddNewAdmin and handleRevoke
  // ---------------------------------------------------------------------------

  /** The add-admin form `newAdminData`. `year` starts as the string '' and holds what
      `parseInt` makes of the chosen option once one is picked. */
  datatype AdminForm = AdminForm(name: string, email: string, department: string, year: Value, permissions: seq<string>)

  /** The form as first shown and as reset after each addition (lines 12-18, 62-68). */
  function DefaultForm(): (f: AdminForm)
    ensures f.permissions == ["manage_candidates", "view_results"]
    ensures f.name == "" && f.email == "" && f.department == "" && f.year == Str("")
  {
    AdminForm("", "", "", Str(""), ["manage_candidates", "view_results"])
  }

  /** The year select's change handler (line 337): the option's value through
      `parseInt`, the rest of the form as it was. */
  function SelectYear(f: AdminForm, option: string): (r: AdminForm)
    ensures ParseInt(option).Some? ==> r.year == Num(ParseInt(option).value)
    ensures ParseInt(option).None? ==> r.year == Null
    ensures r.(year := f.year) == f
  {
    f.(year := ElectionForm.SelectionValue(option))
  }

  /** The options of lines 344-346: "Year 1" to "Year 5" store the numbers 1 to 5, and
      "Select year" (the value '') stores NaN, written as `null`. */
  lemma YearOptions(f: AdminForm, year: nat)
    requires 1 <= year <= 5
    ensures SelectYear(f, NatToString(year)).year == Num(year)
    ensures SelectYear(f, "").year == Null
  {
    ParseIntRoundTrip(year);
  }

  function FormFields(f: AdminForm): (r: Object)
    ensures r.Keys == {"name", "email", "department", "year", "permissions"}
    ensures r["name"] == Str(f.name) && r["email"] == Str(f.email) && r["department"] == Str(f.department)
    ensures r["year"] == f.year && r["permissions"] == Arr(StrArr(f.permissions))
  {
    map["name" := Str(f.name), "email" := Str(f.email), "department" := Str(f.department),
        "year" := f.year, "permissions" := Arr(StrArr(f.permissions))]
  }

  /** The id `A${Math.floor(1000 + Math.random() * 9000)}`, the draw being
      `Math.floor(r * 9000)`. */
  function AdminId(draw: nat): (id: string)
    requires draw < 9000
    ensures |id| == 5 && id[0] == 'A' && AllDigits(id[1..])
    ensures 1000 <= DigitsValue(id[1..]) <= 9999 && DigitsValue(id[1..]) == 1000 + draw
  {
    assert Pow10(3) == 1000 && Pow10(4) == 10000;
    NatToStringLength(1000 + draw, 4);
    var id := "A" + NatToString(1000 + draw);
    assert id[1..] == NatToString(1000 + draw);
    id
  }

  /** The new entry of lines 50-56: the generated id, role 'student_admin', the assigning
      admin's email and the day (`YYYY-MM-DD`), then the form's fields. An undefined
      email leaves `assignedBy` out, as it is when the list is saved. */
  function NewAdmin(form: AdminForm, draw: nat, assignedBy: Option<Value>, today: string): (r: Object)
    requires draw < 9000
    ensures forall k :: k in r <==> k in Stamp(draw, assignedBy, today) || k in FormFields(form)
    ensures forall k :: k in FormFields(form) ==> r[k] == FormFields(form)[k]
    ensures forall k :: k in Stamp(draw, assignedBy, today) && k !in FormFields(form) ==> r[k] == Stamp(draw, assignedBy, today)[k]
  {
    Stamp(draw, assignedBy, today) + FormFields(form)
  }

  /** The fields the page sets before the form's (lines 51-54). */
  function Stamp(draw: nat, assignedBy: Option<Value>, today: string): (r: Object)
    requires draw < 9000
    ensures r.Keys == {"id", "role", "assignedDate"} + (if assignedBy.Some? then {"assignedBy"} else {})
    ensures r["id"] == Str(AdminId(draw)) && r["role"] == Str("student_admin") && r["assignedDate"] == Str(today)
    ensures Get(r, "assignedBy") == assignedBy
  {
    var generated := map["id" := Str(AdminId(draw)), "role" := Str("student_admin"), "assignedDate" := Str(today)];
    if assignedBy.Some? then generated["assignedBy" := assignedBy.value] else generated
  }

  /** The entry holds the generated id, role and date and every field of the form. */
  lemma NewAdminFields(form: AdminForm, draw: nat, assignedBy: Option<Value>, today: string)
    requires draw < 9000
    ensures var r := NewAdmin(form, draw, assignedBy, today);
            && r.Keys == {"id", "role", "assignedDate", "name", "email", "department", "year", "permissions"}
                         + (if assignedBy.Some? then {"assignedBy"} else {})
            && r["id"] == Str(AdminId(draw)) && r["role"] == Str("student_admin") && r["assignedDate"] == Str(today)
            && Get(r, "assignedBy") == assignedBy
            && r["name"] == Str(form.name) && r["email"] == Str(form.email) && r["department"] == Str(form.department)
            && r["year"] == form.year && r["permissions"] == Arr(StrArr(form.permissions))
  {
    var stamp := Stamp(draw, assignedBy, today);
    var fields := FormFields(form);
    assert forall k :: k in stamp ==> k !in fields;
  }

  /** handleAddNewAdmin (lines 48-72): one entry appended, the list before it kept in
      order, and the form reset. */
  function AddAdmin(admins: seq<Object>, form: AdminForm, draw: nat, assignedBy: Option<Value>, today: string)
    : (r: (seq<Object>, AdminForm))
    requires draw < 9000
    ensures |r.0| == |admins| + 1 && r.0[..|admins|] == admins
    ensures r.0[|admins|] == NewAdmin(form, draw, assignedBy, today)
    ensures r.1 == DefaultForm()
  {
    (admins + [NewAdmin(form, draw, assignedBy, today)], DefaultForm())
  }

  /** `admin => admin.id !== adminId`. */
  function OtherId(adminId: Option<Value>): Object -> bool {
    (a: Object) => !StrictEquals(Get(a, "id"), adminId)
  }

  /** handleRevoke (lines 74-85): once confirmed, every entry with the id goes. */
  function Revoke(admins: seq<Object>, adminId: Option<Value>, confirmed: bool): (r: seq<Object>)
    ensures !confirmed ==> r == admins
    ensures forall i :: 0 <= i < |r| ==> !confirmed || !StrictEquals(Get(r[i], "id"), adminId)
    ensures |r| <= |admins|
  {
    if confirmed then Filter(admins, OtherId(adminId)) else admins
  }

  /** Revoking keeps every other entry, as often as it was listed, and drops every
      entry with the id. It works entry by entry in list order: a list split in two is
      revoked part by part, and a single entry is kept exactly when its id differs, so
      the entries kept stay in their original order. */
  lemma RevokeKeepsOthers(admins: seq<Object>, rest: seq<Object>, adminId: Option<Value>, a: Object)
    ensures multiset(Revoke(admins, adminId, true))[a] ==
              if StrictEquals(Get(a, "id"), adminId) then 0 else multiset(admins)[a]
    ensures Revoke(admins + rest, adminId, true) == Revoke(admins, adminId, true) + Revoke(rest, adminId, true)
    ensures Revoke([a], adminId, true) == if StrictEquals(Get(a, "id"), adminId) then [] else [a]
  {
    FilterCounts(admins, OtherId(adminId));
    FilterAppend(admins, rest, OtherId(adminId));
    assert [a][1..] == [];
  }

  /** A freshly added admin can be revoked by its id, which removes it and leaves
      the list as before when no earlier entry had that id. */
  lemma RevokeUndoesAdd(admins: seq<Object>, form: AdminForm, draw: nat, assignedBy: Option<Value>, today: string)
    requires draw < 9000
    requires forall i :: 0 <= i < |admins| ==> Get(admins[i], "id") != Some(Str(AdminId(draw)))
    ensures Revoke(AddAdmin(admins, form, draw, assignedBy, today).0, Some(Str(AdminId(draw))), true) == admins
  {
    var id := Some(Str(AdminId(draw)));
    var added := NewAdmin(form, draw, assignedBy, today);
    FilterAppend(admins, [added], OtherId(id));
    FilterKeepAll(admins, OtherId(id));
    assert !OtherId(id)(added);
    assert Filter([added], OtherId(id)) == [];
    assert AddAdmin(admins, form, draw, assignedBy, today).0 == admins + [added];
  }
}

=== FILE: text.dfy ===
/** ASCII character classes, case mapping and small string operations. */
module Text {

  predicate IsDigit(c: char) { '0' <= c <= '9' }
  predicate IsUpper(c: char) { 'A' <= c <= 'Z' }
  predicate IsLower(c: char) { 'a' <= c <= 'z' }
  predicate IsLetter(c: char) { IsUpper(c) || IsLower(c) }

  /** Every character of `s` satisfies `p`. */
  predicate All(s: string, p: char -> bool) {
    forall i :: 0 <= i < |s| ==> p(s[i])
  }

  /** ASCII lower-casing of one character; every other character is kept. */
  function ToLower(c: char): (r: char)
    ensures IsUpper(c) ==> IsLower(r) && r as int == c as int + 32
    ensures !IsUpper(c) ==> r == c
  {
    if IsUpper(c) then (c as int + 32) as char else c
  }

  /** ASCII upper-casing of one character; every other character is kept. */
  function ToUpper(c: char): (r: char)
    ensures IsLower(c) ==> IsUpper(r) && r as int == c as int - 32
    ensures !IsLower(c) ==> r == c
  {
    if IsLower(c) then (c as int - 32) as char else c
  }

  function Lower(s: string): (r: string)
    ensures |r| == |s| && forall i :: 0 <= i < |s| ==> r[i] == ToLower(s[i])
  {
    seq(|s|, i requires 0 <= i < |s| => ToLower(s[i]))
  }

  function Upper(s: string): (r: string)
    ensures |r| == |s| && forall i :: 0 <= i < |s| ==> r[i] == ToUpper(s[i])
  {
    seq(|s|, i requires 0 <= i < |s| => ToUpper(s[i]))
  }

  /** Lower-casing works character by character. */
  lemma LowerAppend(a: string, b: string)
    ensures Lower(a + b) == Lower(a) + Lower(b)
  {
    assert forall i :: 0 <= i < |a + b| ==> Lower(a + b)[i] == (Lower(a) + Lower(b))[i];
  }

  /** Upper-casing undoes lower-casing on text made of digits and capital letters. */
  lemma UpperOfLower(s: string)
    requires forall i :: 0 <= i < |s| ==> IsDigit(s[i]) || IsUpper(s[i])
    ensures Upper(Lower(s)) == s
  {
    assert forall i :: 0 <= i < |s| ==> Upper(Lower(s))[i] == s[i];
  }

  /** JavaScript's `s.endsWith(suffix)`. */
  predicate EndsWith(s: string, suffix: string) {
    |suffix| <= |s| && s[|s| - |suffix|..] == suffix
  }

  /** JavaScript's `parts.join(sep)`. */
  function Join(parts: seq<string>, sep: string): string {
    if parts == [] then ""
    else if |parts| == 1 then parts[0]
    else parts[0] + sep + Join(parts[1..], sep)
  }
}

=== FILE: vote_submit.dfy ===
/** The vote-submission route: one ballot is added to the tally document (votes.json).
    Missing election, position and candidate entries are created on the way, and the
    election's turnout record counts one more submission. The route never looks at
    the voter id, so it has no duplicate-vote check. */
module VoteSubmit {
  import opened Wrappers

  /** One candidate's counter. */
  datatype CandidateTally = CandidateTally(votes: nat, lastUpdated: Option<string>)

  /** Candidate id to counter, for one position. */
  type PositionTally = map<string, CandidateTally>

  /** Position id to its counters, for one election. */
  type ElectionTally = map<string, PositionTally>

  /** The per-election turnout record. */
  datatype VoterStatus = VoterStatus(totalEligibleVoters: nat, totalVoted: nat, lastUpdated: Option<string>)

  /** The tally document: election id to counters, and election id to turnout. */
  datatype VotesFile = VotesFile(votes: map<string, ElectionTally>, voterStatus: map<string, VoterStatus>)

  /** The request's `votes` object as `Object.entries` lists it: position id paired with
      the selected candidate ids. */
  type Ballot = seq<(string, seq<string>)>

  datatype VoteRequest = VoteRequest(electionId: string, votes: Option<Ballot>, voterId: string)

  /** The route's reply together with the document it wrote, if any. */
  datatype SubmitOutcome = SubmitOutcome(status: nat, message: string, written: Option<VotesFile>)

  /** A candidate's count, 0 when it has no entry. */
  function VotesOf(pt: PositionTally, c: string): nat {
    if c in pt then pt[c].votes else 0
  }

  function PositionOf(et: ElectionTally, p: string): PositionTally {
    if p in et then et[p] else map[]
  }

  function ElectionOf(data: VotesFile, e: string): ElectionTally {
    if e in data.votes then data.votes[e] else map[]
  }

  /** An election's turnout record, or the fresh record the route starts from. */
  function StatusOf(data: VotesFile, e: string): VoterStatus {
    if e in data.voterStatus then data.voterStatus[e] else VoterStatus(0, 0, None)
  }

  /** The count the document holds for candidate `c` of position `p` in election `e`. */
  function VotesAt(data: VotesFile, e: string, p: string, c: string): nat {
    VotesOf(PositionOf(ElectionOf(data, e), p), c)
  }

  /** How many times the ballot selects `c` for position `p`, over every entry for `p`. */
  function Occurrences(ballot: Ballot, p: string, c: string): nat {
    if ballot == [] then 0
    else (if ballot[0].0 == p then multiset(ballot[0].1)[c] else 0) + Occurrences(ballot[1..], p, c)
  }

  /** How many selections the ballot makes for position `p`. */
  function SelectionCount(ballot: Ballot, p: string): nat {
    if ballot == [] then 0
    else (if ballot[0].0 == p then |ballot[0].1| else 0) + SelectionCount(ballot[1..], p)
  }

  /** The position ids the ballot mentions. */
  function BallotPositions(ballot: Ballot): set<string> {
    set i | 0 <= i < |ballot| :: ballot[i].0
  }

  /** No position id appears twice, as in a JavaScript object. */
  predicate DistinctPositions(ballot: Ballot) {
    forall i, j :: 0 <= i < j < |ballot| ==> ballot[i].0 != ballot[j].0
  }

  /** The sum of the counts of one position. */
  ghost function Total(pt: PositionTally): nat
    decreases pt.Keys
  {
    if pt == map[] then 0
    else
      var c :| c in pt;
      pt[c].votes + Total(pt - {c})
  }

  /** The sum can be split at any candidate. */
  lemma {:induction false} TotalRemove(pt: PositionTally, c: string)
    requires c in pt
    ensures Total(pt) == pt[c].votes + Total(pt - {c})
    decreases pt.Keys
  {
    var d :| d in pt && Total(pt) == pt[d].votes + Total(pt - {d});
    if d != c {
      TotalRemove(pt - {d}, c);
      TotalRemove(pt - {c}, d);
      assert pt - {d} - {c} == pt - {c} - {d};
    }
  }

  /** One increment of one candidate (lines 27-34). */
  function Increment(pt: PositionTally, c: string, now: string): PositionTally {
    pt[c := CandidateTally(VotesOf(pt, c) + 1, Some(now))]
  }

  /** An increment raises the position's sum by one. */
  lemma TotalIncrement(pt: PositionTally, c: string, now: string)
    ensures Total(Increment(pt, c, now)) == Total(pt) + 1
  {
    var r := Increment(pt, c, now);
    TotalRemove(r, c);
    assert r - {c} == pt - {c};
    if c in pt {
      TotalRemove(pt, c);
    } else {
      assert pt - {c} == pt;
    }
  }

  /** The inner loop (lines 26-35): every selected candidate id is incremented once
      per occurrence, in list order. */
  function AddSelections(pt: PositionTally, cands: seq<string>, now: string): (r: PositionTally)
    ensures forall c :: c in r <==> c in pt || c in cands
    ensures forall c :: VotesOf(r, c) == VotesOf(pt, c) + multiset(cands)[c]
    ensures forall c :: c in cands ==> r[c].lastUpdated == Some(now)
    ensures forall c :: c in pt && c !in cands ==> r[c] == pt[c]
    decreases |cands|
  {
    if cands == [] then pt
    else
      var c, rest := cands[0], cands[1..];
      assert cands == [c] + rest;
      AddSelections(Increment(pt, c, now), rest, now)
  }

  /** The position's sum rises by the length of its selection list. */
  lemma {:induction false} AddSelectionsTotal(pt: PositionTally, cands: seq<string>, now: string)
    ensures Total(AddSelections(pt, cands, now)) == Total(pt) + |cands|
    decreases |cands|
  {
    if cands != [] {
      TotalIncrement(pt, cands[0], now);
      AddSelectionsTotal(Increment(pt, cands[0], now), cands[1..], now);
    }
  }

  /** The outer loop (lines 20-36), over the ballot's entries in order; a position
      without an entry starts empty. */
  function RecordPositions(et: ElectionTally, ballot: Ballot, now: string): (r: ElectionTally)
    ensures r.Keys == et.Keys + BallotPositions(ballot)
    decreases |ballot|
  {
    if ballot == [] then et
    else
      assert BallotPositions(ballot) == {ballot[0].0} + BallotPositions(ballot[1..]) by {
        assert forall i :: 1 <= i < |ballot| ==> ballot[i].0 == ballot[1..][i - 1].0;
      }
      RecordPositions(RecordEntry(et, ballot[0], now), ballot[1..], now)
  }

  /** One entry of the outer loop: the position's list is added to its counters. */
  function RecordEntry(et: ElectionTally, entry: (string, seq<string>), now: string): ElectionTally {
    et[entry.0 := AddSelections(PositionOf(et, entry.0), entry.1, now)]
  }

  /** Each candidate's count rises by the number of times the ballot selects it. */
  lemma {:induction false} RecordPositionsCounts(et: ElectionTally, ballot: Ballot, now: string, p: string, c: string)
    ensures VotesOf(PositionOf(RecordPositions(et, ballot, now), p), c)
            == VotesOf(PositionOf(et, p), c) + Occurrences(ballot, p, c)
    decreases |ballot|
  {
    if ballot != [] {
      RecordPositionsCounts(RecordEntry(et, ballot[0], now), ballot[1..], now, p, c);
    }
  }

  /** A candidate the ballot selects carries the submission time. */
  lemma {:induction false} RecordPositionsStamp(et: ElectionTally, ballot: Ballot, now: string, p: string, c: string)
    requires Occurrences(ballot, p, c) > 0
    ensures var r := PositionOf(RecordPositions(et, ballot, now), p);
            c in r && r[c].lastUpdated == Some(now)
    decreases |ballot|
  {
    var et' := RecordEntry(et, ballot[0], now);
    if Occurrences(ballot[1..], p, c) > 0 {
      RecordPositionsStamp(et', ballot[1..], now, p, c);
    } else {
      assert ballot[0].0 == p && c in ballot[0].1;
      RecordPositionsUnselected(et', ballot[1..], now, p, c);
    }
  }

  /** A candidate the ballot does not select keeps its entry as it was. */
  lemma {:induction false} RecordPositionsUnselected(et: ElectionTally, ballot: Ballot, now: string, p: string, c: string)
    requires c in PositionOf(et, p) && Occurrences(ballot, p, c) == 0
    ensures var r := PositionOf(RecordPositions(et, ballot, now), p);
            c in r && r[c] == PositionOf(et, p)[c]
    decreases |ballot|
  {
    if ballot != [] {
      var et' := RecordEntry(et, ballot[0], now);
      assert PositionOf(et', p)[c] == PositionOf(et, p)[c];
      RecordPositionsUnselected(et', ballot[1..], now, p, c);
    }
  }

  /** A position the ballot does not mention is left as it was. */
  lemma {:induction false} RecordPositionsUntouched(et: ElectionTally, ballot: Ballot, now: string, p: string)
    requires p in et && p !in BallotPositions(ballot)
    ensures var r := RecordPositions(et, ballot, now);
            p in r && r[p] == et[p]
    decreases |ballot|
  {
    if ballot != [] {
      assert ballot[0].0 != p;
      assert p !in BallotPositions(ballot[1..]) by {
        assert forall i :: 1 <= i < |ballot| ==> ballot[1..][i - 1].0 == ballot[i].0;
      }
      RecordPositionsUntouched(RecordEntry(et, ballot[0], now), ballot[1..], now, p);
    }
  }

  /** A position's sum rises by the number of selections the ballot makes for it. */
  lemma {:induction false} RecordPositionsTotal(et: ElectionTally, ballot: Ballot, now: string, p: string)
    ensures Total(PositionOf(RecordPositions(et, ballot, now), p)) == Total(PositionOf(et, p)) + SelectionCount(ballot, p)
    decreases |ballot|
  {
    if ballot != [] {
      var et' := RecordEntry(et, ballot[0], now);
      assert p != ballot[0].0 ==> PositionOf(et', p) == PositionOf(et, p);
      AddSelectionsTotal(PositionOf(et, ballot[0].0), ballot[0].1, now);
      RecordPositionsTotal(et', ballot[1..], now, p);
    }
  }

  /** The whole update of lines 15-47 on the parsed document: only this election's
      counters and turnout record change. */
  function RecordVote(data: VotesFile, electionId: string, ballot: Ballot, now: string): (r: VotesFile)
    ensures r.votes.Keys == data.votes.Keys + {electionId}
    ensures forall e :: e in data.votes && e != electionId ==> r.votes[e] == data.votes[e]
    ensures ElectionOf(r, electionId).Keys == ElectionOf(data, electionId).Keys + BallotPositions(ballot)
    ensures r.voterStatus.Keys == data.voterStatus.Keys + {electionId}
    ensures forall e :: e in data.voterStatus && e != electionId ==> r.voterStatus[e] == data.voterStatus[e]
    ensures r.voterStatus[electionId].totalVoted == StatusOf(data, electionId).totalVoted + 1
    ensures r.voterStatus[electionId].totalEligibleVoters == StatusOf(data, electionId).totalEligibleVoters
    ensures r.voterStatus[electionId].lastUpdated == Some(now)
  {
    var status := StatusOf(data, electionId);
    VotesFile(
      data.votes[electionId := RecordPositions(ElectionOf(data, electionId), ballot, now)],
      data.voterStatus[electionId := status.(totalVoted := status.totalVoted + 1, lastUpdated := Some(now))])
  }

  /** Counting in the document: each candidate of the voted election gains exactly the
      number of times the ballot selects it, each position's sum gains the number of
      selections made for it, and unselected candidates keep their entries. */
  lemma RecordVoteCounts(data: VotesFile, e: string, ballot: Ballot, now: string, p: string, c: string)
    ensures var r := RecordVote(data, e, ballot, now);
            && VotesAt(r, e, p, c) == VotesAt(data, e, p, c) + Occurrences(ballot, p, c)
            && Total(PositionOf(ElectionOf(r, e), p)) == Total(PositionOf(ElectionOf(data, e), p)) + SelectionCount(ballot, p)
            && (Occurrences(ballot, p, c) > 0 ==>
                  c in PositionOf(ElectionOf(r, e), p) && PositionOf(ElectionOf(r, e), p)[c].lastUpdated == Some(now))
            && (c in PositionOf(ElectionOf(data, e), p) && Occurrences(ballot, p, c) == 0 ==>
                  c in PositionOf(ElectionOf(r, e), p) && PositionOf(ElectionOf(r, e), p)[c] == PositionOf(ElectionOf(data, e), p)[c])
  {
    var et := ElectionOf(data, e);
    RecordPositionsCounts(et, ballot, now, p, c);
    RecordPositionsTotal(et, ballot, now, p);
    if Occurrences(ballot, p, c) > 0 {
      RecordPositionsStamp(et, ballot, now, p, c);
    } else if c in PositionOf(et, p) {
      RecordPositionsUnselected(et, ballot, now, p, c);
    }
  }

  /** A position absent from the ballot is left as it was. */
  lemma RecordVoteUntouched(data: VotesFile, e: string, ballot: Ballot, now: string, p: string)
    requires p in ElectionOf(data, e) && p !in BallotPositions(ballot)
    ensures var r := RecordVote(data, e, ballot, now);
            p in ElectionOf(r, e) && ElectionOf(r, e)[p] == ElectionOf(data, e)[p]
  {
    RecordPositionsUntouched(ElectionOf(data, e), ballot, now, p);
  }

  /** The route: read the document, apply the ballot, write it back. An unreadable
      document, a missing `votes` object (`Object.entries(undefined)` throws) or a
      failed write all answer 500 and persist nothing. */
  function Submit(file: Option<VotesFile>, req: VoteRequest, now: string, writeSucceeds: bool): (r: SubmitOutcome)
    ensures r.status == 200 <==> file.Some? && req.votes.Some? && writeSucceeds
    ensures r.status != 200 ==> r.status == 500 && r.message == "Failed to record vote" && r.written == None
    ensures r.status == 200 ==> r.message == "Vote recorded successfully" && r.written.Some?
    ensures r.status == 200 ==> r.written == Some(RecordVote(file.value, req.electionId, req.votes.value, now))
    ensures r.status == 200 ==>
              StatusOf(r.written.value, req.electionId).totalVoted == StatusOf(file.value, req.electionId).totalVoted + 1
  {
    if file.None? || req.votes.None? || !writeSucceeds then
      SubmitOutcome(500, "Failed to record vote", None)
    else
      SubmitOutcome(200, "Vote recorded successfully", Some(RecordVote(file.value, req.electionId, req.votes.value, now)))
  }

  /** With distinct position ids, each position's counts rise by exactly its own list. */
  lemma {:induction false} OccurrencesOfEntry(ballot: Ballot, i: nat, c: string)
    requires DistinctPositions(ballot) && i < |ballot|
    ensures Occurrences(ballot, ballot[i].0, c) == multiset(ballot[i].1)[c]
    ensures SelectionCount(ballot, ballot[i].0) == |ballot[i].1|
  {
    var p := ballot[i].0;
    if i == 0 {
      AbsentPosition(ballot[1..], p, c);
    } else {
      assert ballot[1..][i - 1] == ballot[i];
      OccurrencesOfEntry(ballot[1..], i - 1, c);
    }
  }

  /** A position the ballot does not mention gets no votes. */
  lemma {:induction false} AbsentPosition(ballot: Ballot, p: string, c: string)
    requires forall i :: 0 <= i < |ballot| ==> ballot[i].0 != p
    ensures Occurrences(ballot, p, c) == 0 && SelectionCount(ballot, p) == 0
  {
    if ballot != [] {
      AbsentPosition(ballot[1..], p, c);
    }
  }

  /** The voter id plays no part in the outcome. */
  lemma VoterIdIgnored(file: Option<VotesFile>, req: VoteRequest, other: string, now: string, writeSucceeds: bool)
    ensures Submit(file, req.(voterId := other), now, writeSucceeds) == Submit(file, req, now, writeSucceeds)
  {
  }

  /** Submitting the same ballot twice counts it twice: there is no duplicate-vote check. */
  lemma RepeatedSubmission(data: VotesFile, e: string, ballot: Ballot, now1: string, now2: string, p: string, c: string)
    ensures var twice := RecordVote(RecordVote(data, e, ballot, now1), e, ballot, now2);
            && VotesAt(twice, e, p, c) == VotesAt(data, e, p, c) + 2 * Occurrences(ballot, p, c)
            && twice.voterStatus[e].totalVoted == StatusOf(data, e).totalVoted + 2
  {
    RecordVoteCounts(data, e, ballot, now1, p, c);
    RecordVoteCounts(RecordVote(data, e, ballot, now1), e, ballot, now2, p, c);
  }
}

=== FILE: voter_dashboard.dfy ===
/** The voter dashboard's rules: the timeline classification of an election, the list
    of elections a voter is shown, the candidate toggle bounded by a position's
    `maxSelections`, the submit check, and the one-time "voted" flag kept in browser
    storage. Clock readings are parameters (`now`, milliseconds), and parsed dates
    are integers with `None` for an unparseable date (NaN). */
module VoterDashboard {
  import opened Wrappers
  import opened Seqs
  import opened Text

  /** A ballot position; `maxSelections` is `None` when it is absent or NaN. */
  datatype Position = Position(id: string, title: string, maxSelections: Option<int>, candidates: seq<string>)

  /** `new Date(startDate).getTime()` and the same for `endDate`. */
  datatype Timeline = Timeline(startTime: Option<int>, endTime: Option<int>)

  /** An election as the dashboard reads it; `timeline` is `None` when it is missing. */
  datatype Election = Election(id: string, title: string, positions: seq<Position>, timeline: Option<Timeline>)

  /** The voter the session describes (lines 44-49). */
  datatype VoterProfile = VoterProfile(email: string, name: string, department: string, yearOfStudy: int)

  /** Position id to the candidate ids picked so far, in the order they were picked. */
  type Selections = map<string, seq<string>>

  datatype Status = Active | Upcoming | Ended | Error

  datatype ElectionStatus = ElectionStatus(status: Status, text: string, canVote: bool, timeLeft: Option<int>)

  // ---------------------------------------------------------------------------
  // Timeline classification (getElectionStatus, isElectionActive)
  // ---------------------------------------------------------------------------

  /** A parsed time the status check accepts: a number that is not 0. */
  predicate UsableTime(t: Option<int>) {
    t.Some? && t.value != 0
  }

  predicate UsableTimeline(timeline: Option<Timeline>) {
    timeline.Some? && UsableTime(timeline.value.startTime) && UsableTime(timeline.value.endTime)
  }

  /** getElectionStatus (lines 84-116). A missing timeline throws inside the `try` and
      yields the generic error record. */
  function GetElectionStatus(timeline: Option<Timeline>, now: int): (r: ElectionStatus)
    ensures r.status == Error <==> !UsableTimeline(timeline)
    ensures r.canVote <==>
              UsableTimeline(timeline) && timeline.value.startTime.value <= now <= timeline.value.endTime.value
    ensures r.status == Active <==> r.canVote
    ensures r.status == Upcoming <==> UsableTimeline(timeline) && now < timeline.value.startTime.value
    ensures r.status == Ended <==>
              UsableTimeline(timeline) && timeline.value.startTime.value <= now && timeline.value.endTime.value < now
    ensures r.status != Error ==> r.timeLeft == Some(timeline.value.endTime.value - now)
    ensures r.text == match r.status
                      case Active => "Active"
                      case Upcoming => "Not Started"
                      case Ended => "Ended"
                      case Error => if timeline.None? then "Error" else "Date Error"
  {
    if timeline.None? then ElectionStatus(Error, "Error", false, None)
    else if !UsableTimeline(timeline) then ElectionStatus(Error, "Date Error", false, None)
    else
      var start := timeline.value.startTime.value;
      var end := timeline.value.endTime.value;
      var canVote := now >= start && now <= end;
      var status := if canVote then Active else if now < start then Upcoming else Ended;
      var text := if status == Active then "Active" else if status == Upcoming then "Not Started" else "Ended";
      ElectionStatus(status, text, canVote, Some(end - now))
  }

  /** isElectionActive (lines 123-134): comparisons with NaN are false, and a time of 0
      is not singled out. */
  function IsElectionActive(timeline: Option<Timeline>, now: int): (r: bool)
    ensures r <==> && timeline.Some? && timeline.value.startTime.Some? && timeline.value.endTime.Some?
                   && timeline.value.startTime.value <= now <= timeline.value.endTime.value
  {
    match timeline
    case None => false
    case Some(t) => t.startTime.Some? && t.endTime.Some? && now >= t.startTime.value && now <= t.endTime.value
  }

  /** The two checks agree except on a time of exactly 0 (the epoch), which only the
      status check rejects. */
  lemma ActiveAgreesWithStatus(timeline: Option<Timeline>, now: int)
    ensures UsableTimeline(timeline) ==> IsElectionActive(timeline, now) == GetElectionStatus(timeline, now).canVote
    ensures GetElectionStatus(timeline, now).canVote ==> IsElectionActive(timeline, now)
  {
  }

  /** isVoterEligible (lines 118-121): every voter is eligible. */
  function IsVoterEligible(voter: VoterProfile, election: Election): (r: bool)
    ensures r
  {
    true
  }

  /** filterEligibleElections (lines 136-168). */
  function FilterEligibleElections(voter: VoterProfile, elections: seq<Election>, now: int): (r: seq<Election>)
    ensures forall e :: e in r <==> e in elections && IsElectionActive(e.timeline, now)
    ensures forall e :: multiset(r)[e] == if IsElectionActive(e.timeline, now) then multiset(elections)[e] else 0
  {
    var keep := (e: Election) => IsElectionActive(e.timeline, now) && IsVoterEligible(voter, e);
    FilterCounts(elections, keep);
    Filter(elections, keep)
  }

  /** The eligible list is exactly the active elections, in their original order. */
  lemma EligibleAreTheActive(voter: VoterProfile, elections: seq<Election>, now: int)
    ensures FilterEligibleElections(voter, elections, now) == Filter(elections, (e: Election) => IsElectionActive(e.timeline, now))
  {
    var active := (e: Election) => IsElectionActive(e.timeline, now);
    var eligible := (e: Election) => IsVoterEligible(voter, e);
    FilterConjunction(elections, active, eligible, (e: Election) => IsElectionActive(e.timeline, now) && IsVoterEligible(voter, e));
    FilterKeepAll(Filter(elections, active), eligible);
  }

  // ---------------------------------------------------------------------------
  // Time left (calculateTimeLeft)
  // ---------------------------------------------------------------------------

  const DayMillis: int := 1000 * 60 * 60 * 24

  /** The day counts the card shows; the wording around the number is not modelled. */
  datatype TimeLeft = InvalidDate | ElectionEnded | StartsIn(days: int) | DaysRemaining(days: int)

  /** calculateTimeLeft as written (lines 170-177): the "Starts in" count is taken from
      the status's `timeLeft`, which is the time until the END of the election. */
  function CalculateTimeLeftAsWritten(timeline: Option<Timeline>, now: int): (r: TimeLeft)
    ensures GetElectionStatus(timeline, now).status == Upcoming ==>
              r == StartsIn((timeline.value.endTime.value - now) / DayMillis)
  {
    var status := GetElectionStatus(timeline, now);
    match status.status
    case Error => InvalidDate
    case Ended => ElectionEnded
    case Upcoming => StartsIn(status.timeLeft.value / DayMillis)
    case Active => DaysRemaining(status.timeLeft.value / DayMillis)
  }

  /** calculateTimeLeft with the "Starts in" count measured to the start: whole days
      until the start for an upcoming election, whole days until the end for an
      active one. */
  function CalculateTimeLeft(timeline: Option<Timeline>, now: int): (r: TimeLeft)
    ensures r.InvalidDate? <==> !UsableTimeline(timeline)
    ensures r.ElectionEnded? <==> GetElectionStatus(timeline, now).status == Ended
    ensures r.StartsIn? <==> GetElectionStatus(timeline, now).status == Upcoming
    ensures r.StartsIn? ==> 0 <= r.days * DayMillis <= timeline.value.startTime.value - now < (r.days + 1) * DayMillis
    ensures r.DaysRemaining? <==> GetElectionStatus(timeline, now).canVote
    ensures r.DaysRemaining? ==> 0 <= r.days * DayMillis <= timeline.value.endTime.value - now < (r.days + 1) * DayMillis
  {
    var status := GetElectionStatus(timeline, now);
    match status.status
    case Error => InvalidDate
    case Ended => ElectionEnded
    case Upcoming => StartsIn((timeline.value.startTime.value - now) / DayMillis)
    case Active => DaysRemaining(status.timeLeft.value / DayMillis)
  }

  /** The two versions differ only in the count of an upcoming election. */
  lemma TimeLeftDiffersOnlyWhenUpcoming(timeline: Option<Timeline>, now: int)
    ensures GetElectionStatus(timeline, now).status != Upcoming ==>
              CalculateTimeLeftAsWritten(timeline, now) == CalculateTimeLeft(timeline, now)
    ensures CalculateTimeLeftAsWritten(timeline, now).StartsIn? <==> CalculateTimeLeft(timeline, now).StartsIn?
  {
  }

  /** The discrepancy: an election starting in one day and ending in ten is announced
      as starting in ten days. */
  lemma StartsInCountsToTheEnd(now: int)
    requires now > 0
    ensures var timeline := Some(Timeline(Some(now + DayMillis), Some(now + 10 * DayMillis)));
            && CalculateTimeLeftAsWritten(timeline, now) == StartsIn(10)
            && CalculateTimeLeft(timeline, now) == StartsIn(1)
  {
  }

  // ---------------------------------------------------------------------------
  // Candidate toggle (handleCandidateSelect)
  // ---------------------------------------------------------------------------

  /** The first position with the given id (`positions.find`). */
  function FindPosition(positions: seq<Position>, id: string): (r: Option<Position>)
    ensures r.Some? ==> r.value in positions && r.value.id == id
    ensures r.Some? ==> exists i :: && 0 <= i < |positions| && positions[i] == r.value
                                   && forall j :: 0 <= j < i ==> positions[j].id != id
    ensures r.None? <==> forall i :: 0 <= i < |positions| ==> positions[i].id != id
  {
    if positions == [] then None
    else if positions[0].id == id then Some(positions[0])
    else FindPosition(positions[1..], id)
  }

  /** `position.maxSelections || 1`: absent, NaN and 0 all mean 1. */
  function EffectiveMax(pos: Position): (m: int)
    ensures m != 0
    ensures pos.maxSelections.Some? && pos.maxSelections.value != 0 ==> m == pos.maxSelections.value
    ensures pos.maxSelections.None? || pos.maxSelections.value == 0 ==> m == 1
  {
    match pos.maxSelections
    case None => 1
    case Some(m) => if m == 0 then 1 else m
  }

  /** The longest list the toggle lets a position reach: the first pick into an empty
      position is never checked against the maximum, so a negative maximum still
      admits one pick. */
  function Bound(pos: Position): nat {
    var m := EffectiveMax(pos);
    if m >= 1 then m else 1
  }

  function Differs(c: string): string -> bool {
    (x: string) => x != c
  }

  /** The ids other than `c`, in order (`filter(id => id !== c)`). */
  function Without(s: seq<string>, c: string): (r: seq<string>)
    ensures c !in r
    ensures forall x :: x != c ==> multiset(r)[x] == multiset(s)[x]
  {
    FilterCounts(s, Differs(c));
    Filter(s, Differs(c))
  }

  /** Removal works element by element in list order: a list split in two loses the id
      part by part. */
  lemma WithoutAppend(a: seq<string>, b: seq<string>, c: string)
    ensures Without(a + b, c) == Without(a, c) + Without(b, c)
  {
    FilterAppend(a, b, Differs(c));
  }

  /** On a list without duplicates, removing the id at index i cuts out exactly that
      element and keeps the others in order. */
  lemma WithoutAt(s: seq<string>, i: nat)
    requires NoDuplicates(s) && i < |s|
    ensures Without(s, s[i]) == s[..i] + s[i + 1..]
  {
    var c := s[i];
    var front, back := s[..i], s[i + 1..];
    assert s == front + [c] + back;
    assert forall k :: 0 <= k < |front| ==> Differs(c)(front[k]) by {
      forall k | 0 <= k < |front| ensures front[k] != c { assert front[k] == s[k]; }
    }
    assert forall k :: 0 <= k < |back| ==> Differs(c)(back[k]) by {
      forall k | 0 <= k < |back| ensures back[k] != c { assert back[k] == s[i + 1 + k]; }
    }
    var keep := Differs(c);
    FilterKeepAll(front, keep);
    FilterKeepAll(back, keep);
    FilterAppend(front + [c], back, keep);
    FilterAppend(front, [c], keep);
    assert Filter([c], keep) == [] by { assert [c][1..] == []; }
    calc {
      Without(s, c);
      Filter(front + [c] + back, keep);
      Filter(front, keep) + Filter([c], keep) + Filter(back, keep);
      front + [] + back;
      { assert front + [] == front; }
      front + back;
    }
  }

  /** The state update of handleCandidateSelect (lines 180-203). `None` stands for the
      exception thrown when the position id is unknown. */
  function ToggleCandidate(election: Election, sel: Selections, positionId: string, candidateId: string): (r: Option<Selections>)
    ensures r.None? <==> FindPosition(election.positions, positionId).None?
    ensures r.Some? ==> r.value.Keys == sel.Keys + {positionId}
    ensures r.Some? ==> forall p :: p in sel && p != positionId ==> r.value[p] == sel[p]
    ensures r.Some? && positionId !in sel ==> r.value[positionId] == [candidateId]
    ensures r.Some? && positionId in sel ==>
              var before := sel[positionId];
              var after := r.value[positionId];
              && (forall x :: x != candidateId ==> multiset(after)[x] == multiset(before)[x])
              && (candidateId in before ==> candidateId !in after && after == Without(before, candidateId))
              && (candidateId !in before ==>
                    (candidateId in after <==> |before| < EffectiveMax(FindPosition(election.positions, positionId).value)))
              && (candidateId !in before && candidateId in after ==> after == before + [candidateId])
    ensures (&& r.Some? && positionId in sel && candidateId !in sel[positionId]
             && |sel[positionId]| >= EffectiveMax(FindPosition(election.positions, positionId).value)) ==> r.value == sel
  {
    var position := FindPosition(election.positions, positionId);
    if position.None? then None
    else
      var maxSelections := EffectiveMax(position.value);
      if positionId !in sel then Some(sel[positionId := [candidateId]])
      else if candidateId in sel[positionId] then Some(sel[positionId := Without(sel[positionId], candidateId)])
      else if |sel[positionId]| < maxSelections then Some(sel[positionId := sel[positionId] + [candidateId]])
      else Some(sel)
  }

  /** No candidate is listed twice. */
  predicate NoDuplicates(s: seq<string>) {
    forall i, j :: 0 <= i < j < |s| ==> s[i] != s[j]
  }

  /** Every list stays within its position's bound and holds no duplicates; only known
      positions have lists. */
  predicate WellFormed(election: Election, sel: Selections) {
    forall p :: p in sel ==>
      && FindPosition(election.positions, p).Some?
      && |sel[p]| <= Bound(FindPosition(election.positions, p).value)
      && NoDuplicates(sel[p])
  }

  lemma {:induction false} WithoutNoDuplicates(s: seq<string>, c: string)
    requires NoDuplicates(s)
    ensures NoDuplicates(Without(s, c)) && |Without(s, c)| <= |s|
  {
    if s != [] {
      WithoutNoDuplicates(s[1..], c);
      assert NoDuplicates(s[1..]);
      var rest := Without(s[1..], c);
      if s[0] != c {
        assert s[0] !in s[1..];
        assert multiset(rest)[s[0]] == 0;
        assert Without(s, c) == [s[0]] + rest;
      } else {
        assert Without(s, c) == rest;
      }
    }
  }

  /** The toggle keeps every list within its bound and free of duplicates, starting
      from the empty state the dashboard begins with. */
  lemma ToggleKeepsWellFormed(election: Election, sel: Selections, positionId: string, candidateId: string)
    requires WellFormed(election, sel)
    requires ToggleCandidate(election, sel, positionId, candidateId).Some?
    ensures WellFormed(election, ToggleCandidate(election, sel, positionId, candidateId).value)
  {
    var pos := FindPosition(election.positions, positionId).value;
    if positionId !in sel {
      UpdateKeepsWellFormed(election, sel, positionId, [candidateId]);
    } else if candidateId in sel[positionId] {
      WithoutNoDuplicates(sel[positionId], candidateId);
      UpdateKeepsWellFormed(election, sel, positionId, Without(sel[positionId], candidateId));
    } else if |sel[positionId]| < EffectiveMax(pos) {
      var l := sel[positionId] + [candidateId];
      assert NoDuplicates(l);
      UpdateKeepsWellFormed(election, sel, positionId, l);
    }
  }

  /** Replacing one known position's list by a short enough list without duplicates
      keeps the selections well formed. */
  lemma UpdateKeepsWellFormed(election: Election, sel: Selections, p: string, l: seq<string>)
    requires WellFormed(election, sel)
    requires FindPosition(election.positions, p).Some?
    requires |l| <= Bound(FindPosition(election.positions, p).value) && NoDuplicates(l)
    ensures WellFormed(election, sel[p := l])
  {
  }

  /** Removing an id that was appended to a list without it gives the list back. */
  lemma WithoutAppended(s: seq<string>, c: string)
    requires c !in s
    ensures Without(s + [c], c) == s
  {
    var keep := Differs(c);
    FilterAppend(s, [c], keep);
    FilterKeepAll(s, keep);
    assert Filter([c], keep) == [];
  }

  /** Picking a candidate and then picking it again gives the state back, when the
      position already has a list with room left. */
  lemma ToggleTwice(election: Election, sel: Selections, positionId: string, candidateId: string)
    requires FindPosition(election.positions, positionId).Some?
    requires positionId in sel && candidateId !in sel[positionId]
    requires |sel[positionId]| < EffectiveMax(FindPosition(election.positions, positionId).value)
    ensures var once := ToggleCandidate(election, sel, positionId, candidateId).value;
            ToggleCandidate(election, once, positionId, candidateId) == Some(sel)
  {
    var s := sel[positionId];
    WithoutAppended(s, candidateId);
    var once := sel[positionId := s + [candidateId]];
    assert ToggleCandidate(election, sel, positionId, candidateId) == Some(once);
    assert candidateId in once[positionId];
    assert once[positionId := s] == sel;
  }

  // ---------------------------------------------------------------------------
  // Submission (handleVoteSubmit) and opening an election (handleElectionClick)
  // ---------------------------------------------------------------------------

  /** `selectedCandidates[id] || []`. */
  function SelectionOf(sel: Selections, id: string): seq<string> {
    if id in sel then sel[id] else []
  }

  /** `selections.length === position.maxSelections`; never true when the maximum is
      absent or NaN. */
  predicate PositionComplete(sel: Selections, pos: Position) {
    pos.maxSelections == Some(|SelectionOf(sel, pos.id)|)
  }

  predicate BallotComplete(election: Election, sel: Selections) {
    forall i :: 0 <= i < |election.positions| ==> PositionComplete(sel, election.positions[i])
  }

  function Titles(positions: seq<Position>): (r: seq<string>)
    ensures |r| == |positions| && forall i :: 0 <= i < |r| ==> r[i] == positions[i].title
  {
    if positions == [] then [] else [positions[0].title] + Titles(positions[1..])
  }

  /** The outcome of a submission: the error shown, or the new set of elections whose
      "voted" flag is set. */
  datatype SubmitResult = Rejected(message: string) | Submitted(votedFlags: set<string>)

  const AlreadyVotedMessage := "You have already voted in this election"

  /** The checks and flag update of handleVoteSubmit (lines 206-227). `votedFlags` holds
      the ids of the elections with a `voted_<id>` entry in browser storage. */
  function HandleVoteSubmit(election: Election, sel: Selections, votedFlags: set<string>): (r: SubmitResult)
    ensures r.Submitted? <==> BallotComplete(election, sel) && election.id !in votedFlags
    ensures r.Submitted? ==> r.votedFlags == votedFlags + {election.id}
    ensures !BallotComplete(election, sel) ==>
              var missing := Filter(election.positions, (pos: Position) => !PositionComplete(sel, pos));
              && |missing| > 0
              && r == Rejected("Please select candidates for: " + Join(Titles(missing), ", "))
    ensures BallotComplete(election, sel) && election.id in votedFlags ==> r == Rejected(AlreadyVotedMessage)
  {
    var missing := (pos: Position) => !PositionComplete(sel, pos);
    var unselected := Filter(election.positions, missing);
    FilterCounts(election.positions, missing);
    if |unselected| > 0 then
      Rejected("Please select candidates for: " + Join(Titles(unselected), ", "))
    else if election.id in votedFlags then
      assert BallotComplete(election, sel) by {
        forall i | 0 <= i < |election.positions|
          ensures PositionComplete(sel, election.positions[i])
        {
          assert election.positions[i] in election.positions;
        }
      }
      Rejected(AlreadyVotedMessage)
    else
      assert BallotComplete(election, sel) by {
        forall i | 0 <= i < |election.positions|
          ensures PositionComplete(sel, election.positions[i])
        {
          assert election.positions[i] in election.positions;
        }
      }
      Submitted(votedFlags + {election.id})
  }

  /** The flag makes submission one-time: once a submission succeeds, no later
      submission for that election does, whatever is selected. */
  lemma SubmitOnce(election: Election, sel: Selections, later: Selections, votedFlags: set<string>)
    requires HandleVoteSubmit(election, sel, votedFlags).Submitted?
    ensures !HandleVoteSubmit(election, later, HandleVoteSubmit(election, sel, votedFlags).votedFlags).Submitted?
  {
  }

  /** handleElectionClick (lines 253-267): an election whose flag is set is not opened. */
  function HandleElectionClick(votedFlags: set<string>, election: Election, active: Option<Election>): (r: Option<Election>)
    ensures election.id in votedFlags ==> r == active
    ensures election.id !in votedFlags ==> r == Some(election)
  {
    if election.id in votedFlags then active else Some(election)
  }
}

=== FILE: voter_login.dfy ===
/** The voter login page: the college-address and roll-number checks of the first
    step, the passkey request, and the passkey check that opens a voter session. */
module VoterLogin {
  import opened Wrappers
  import opened Json
  import opened Seqs
  import opened Text
  import SendPasskey

  /** An entry of voter.json, as far as the page reads it. */
  datatype VoterRecord = VoterRecord(email: Option<Value>, rollNumber: Option<Value>, name: Option<Value>)

  /** The record stored as `voter` after a successful login. */
  datatype Session = Session(email: string, rollNumber: string, name: Option<Value>, authenticated: bool, timestamp: nat)

  /** The page state the two steps read and write. `storedPasskey` is `None` when the
      reply carried no passkey. */
  datatype LoginState = LoginState(email: string, rollNumber: string, passkey: string, showPasskey: bool,
                                   storedPasskey: Option<string>, error: string, session: Option<Session>)

  const CollegeDomain := "@college.edu"
  const NotCollegeAddress := "Please use your college email address (@college.edu)"
  const UnknownEmail := "Email not found in voter database"
  const FieldsRequired := "All fields are required"
  const WrongRollNumber := "Invalid roll number"
  const PasskeyRequired := "Please enter the passkey"
  const WrongPasskey := "Invalid passkey. Please check and try again."
  const VoterMissing := "Voter data not found"

  function InitialState(): LoginState {
    LoginState("", "", "", false, Some(""), "", None)
  }

  function HasEmail(email: string): VoterRecord -> bool {
    (v: VoterRecord) => StrictEquals(v.email, Some(Str(email)))
  }

  /** validateEmail (lines 37-46): the suffix first, then the voter with this email. */
  function ValidateEmail(email: string, voters: seq<VoterRecord>): (r: Result)
    ensures !EndsWith(email, CollegeDomain) ==> r == Fail(NotCollegeAddress)
    ensures EndsWith(email, CollegeDomain) && FindFirst(voters, HasEmail(email)).None? ==> r == Fail(UnknownEmail)
    ensures r.Found? ==> EndsWith(email, CollegeDomain) && r.voter == voters[FindFirst(voters, HasEmail(email)).value]
    ensures r.Found? <==> EndsWith(email, CollegeDomain) && exists i :: 0 <= i < |voters| && HasEmail(email)(voters[i])
  {
    if !EndsWith(email, CollegeDomain) then Fail(NotCollegeAddress)
    else match FindFirst(voters, HasEmail(email))
      case None => Fail(UnknownEmail)
      case Some(i) => Found(voters[i])
  }

  datatype Result = Found(voter: VoterRecord) | Fail(message: string)

  /** A reply of the passkey route counts as `response.ok` for a 2xx status. */
  predicate Ok(reply: SendPasskey.Reply) { 200 <= reply.status < 300 }

  /** `data.error || 'Failed to send passkey'`. */
  function FailureText(reply: SendPasskey.Reply): string {
    if reply.error.Some? && reply.error.value != "" then reply.error.value else "Failed to send passkey"
  }

  function Failed(st: LoginState, message: string): LoginState {
    st.(error := message)
  }

  /** handleInitialSubmit (lines 48-86): empty fields, then the address, then the roll
      number; only then is the passkey requested, and a successful reply opens the
      passkey step with the returned passkey. */
  function InitialSubmit(st: LoginState, voters: seq<VoterRecord>, reply: SendPasskey.Reply): (r: LoginState)
    ensures st.email == "" || st.rollNumber == "" ==> r == Failed(st, FieldsRequired)
    ensures st.email != "" && st.rollNumber != "" && ValidateEmail(st.email, voters).Fail? ==>
              r == Failed(st, ValidateEmail(st.email, voters).message)
    ensures st.email != "" && st.rollNumber != "" && ValidateEmail(st.email, voters).Found? ==>
              var voter := ValidateEmail(st.email, voters).voter;
              && (!StrictEquals(voter.rollNumber, Some(Str(st.rollNumber))) ==> r == Failed(st, WrongRollNumber))
              && (StrictEquals(voter.rollNumber, Some(Str(st.rollNumber))) && !Ok(reply) ==> r == Failed(st, FailureText(reply)))
              && (StrictEquals(voter.rollNumber, Some(Str(st.rollNumber))) && Ok(reply) ==>
                    r == st.(storedPasskey := reply.passkey, showPasskey := true, error := ""))
    ensures r.showPasskey && !st.showPasskey ==> Ok(reply) && r.error == ""
    ensures r.email == st.email && r.rollNumber == st.rollNumber && r.session == st.session
  {
    if st.email == "" || st.rollNumber == "" then Failed(st, FieldsRequired)
    else match ValidateEmail(st.email, voters)
      case Fail(message) => Failed(st, message)
      case Found(voter) =>
        if !StrictEquals(voter.rollNumber, Some(Str(st.rollNumber))) then Failed(st, WrongRollNumber)
        else if !Ok(reply) then Failed(st, FailureText(reply))
        else st.(storedPasskey := reply.passkey, showPasskey := true, error := "")
  }

  /** The passkey field keeps what is typed upper-cased (line 294). */
  function TypePasskey(st: LoginState, typed: string): (r: LoginState)
    ensures |r.passkey| == |typed| && forall i :: 0 <= i < |typed| ==> !IsLower(r.passkey[i])
    ensures Lower(r.passkey) == Lower(typed)
    ensures r.(passkey := st.passkey) == st
  {
    st.(passkey := Upper(typed))
  }

  /** handlePasskeySubmit (lines 88-126): the passkey must be present and equal the
      stored one, and the voter must still be found; the session records the form's
      email and roll number, the voter's name and the clock. */
  function PasskeySubmit(st: LoginState, voters: seq<VoterRecord>, now: nat): (r: LoginState)
    ensures st.passkey == "" ==> r == Failed(st, PasskeyRequired)
    ensures st.passkey != "" && st.storedPasskey != Some(st.passkey) ==> r == Failed(st, WrongPasskey)
    ensures st.passkey != "" && st.storedPasskey == Some(st.passkey) && FindFirst(voters, HasEmail(st.email)).None? ==>
              r == Failed(st, VoterMissing)
    ensures r.error == "" <==>
              && st.passkey != "" && st.storedPasskey == Some(st.passkey)
              && FindFirst(voters, HasEmail(st.email)).Some?
    ensures r.error == "" ==>
              var voter := voters[FindFirst(voters, HasEmail(st.email)).value];
              r == st.(session := Some(Session(st.email, st.rollNumber, voter.name, true, now)), error := "")
    ensures r.error != "" ==> r.session == st.session
  {
    if st.passkey == "" then Failed(st, PasskeyRequired)
    else if st.storedPasskey != Some(st.passkey) then Failed(st, WrongPasskey)
    else match FindFirst(voters, HasEmail(st.email))
      case None => Failed(st, VoterMissing)
      case Some(i) => st.(session := Some(Session(st.email, st.rollNumber, voters[i].name, true, now)), error := "")
  }

  /** The whole login for a registered voter: after the first step succeeds with a
      passkey the route generated, typing that passkey in any letter case opens a
      session carrying the voter's name. */
  lemma PasskeyLoginSucceeds(st: LoginState, voters: seq<VoterRecord>, reply: SendPasskey.Reply, typed: string, now: nat)
    requires st.email != "" && st.rollNumber != ""
    requires ValidateEmail(st.email, voters).Found?
    requires StrictEquals(ValidateEmail(st.email, voters).voter.rollNumber, Some(Str(st.rollNumber)))
    requires reply.status == 200 && reply.passkey.Some? && |reply.passkey.value| == SendPasskey.PasskeyLength
    requires forall i :: 0 <= i < |reply.passkey.value| ==> IsDigit(reply.passkey.value[i]) || IsUpper(reply.passkey.value[i])
    requires typed == reply.passkey.value || typed == Lower(reply.passkey.value)
    ensures var after := PasskeySubmit(TypePasskey(InitialSubmit(st, voters, reply), typed), voters, now);
            && after.error == ""
            && after.session == Some(Session(st.email, st.rollNumber, ValidateEmail(st.email, voters).voter.name, true, now))
  {
    var k := reply.passkey.value;
    UpperOfLower(k);
    assert Upper(k) == k by {
      assert forall i :: 0 <= i < |k| ==> Upper(k)[i] == k[i];
    }
    var first := InitialSubmit(st, voters, reply);
    assert first.storedPasskey == Some(k);
    assert TypePasskey(first, typed).passkey == k;
  }
}

=== FILE: wrappers.dfy ===
/** Optional values: the model's stand-in for JavaScript's `undefined`/`null`. */
module Wrappers {

  datatype Option<+T> = None | Some(value: T) {

    /** The wrapped value, or `default` when there is none (JavaScript's `x || default`
        for values that are never falsy when present). */
    function GetOr(default: T): T {
      match this
      case Some(v) => v
      case None => default
    }
  }
}
